=== FILE: README.md ===
# NCBI disease corpus reader: alignment, loading and lookup

This project models the core of the NCBI disease corpus reader
(`NcbiDiseaseCorpus` in `datasets/ncbi.py`) and proves properties of the
model. The core has three parts.

- **Loading** (`_load_files`). The reader parses the three corpus files into
  three tables: the cross-validation partition of every PMID, the title and
  body of every document, and the gold mention annotations of every PMID.
  Each mention row is checked against the document string
  `title + " " + body`, and a row that fails the check stops the load.
- **Alignment** (`_label`). Every gold mention is given as character
  offsets. It becomes a half-open token span `[sStart, sEnd)` inside each
  tokenized sentence whose character range contains the mention's start.
- **Lookup** (`__getitem__`). This is a cache-or-compute step. A cached
  parse is returned and recorded. Otherwise the document is tokenized, its
  mentions are aligned, and the result is stored and returned.

Modules, leaf first:

- `NcbiTypes` (`ncbi_types.dfy`) holds the records (annotation, sentence,
  tag, document, partition), the error type, and `Result` with `Collect`.
- `PyText` (`py_text.dfy`) gives the meaning of the Python 2 string
  operations the reader uses. These are `strip()`, `split()` on one
  character, slicing with clamped and negative bounds, and `int()`.
- `Alignment` (`alignment.dfy`) models `_label`. `AlignmentFacts`
  (`alignment_facts.dfy`) holds what it promises, and `AlignmentScenarios`
  (`alignment_scenarios.dfy`) holds worked examples.
- `Loader` (`loader.dfy`) models `_load_files` as a pure function from the
  files' lines to the tables. Every exception and the `sys.exit` of the
  sanity check become a `Failure`. `LoaderScenarios`
  (`loader_scenarios.dfy`) holds worked examples.
- `Lookup` (`lookup.dfy`) models `__getitem__` as a state machine. The state
  is the loaded tables plus the cache, a map from PMID to document. The
  tokenizer is a parameter and can be any function from the document string
  to sentences.

In these details the model follows `datasets/ncbi.py` exactly:

- The sentence loop of `_label` has no early exit (`datasets/ncbi.py:110-134`).
  Every sentence whose closed range `[first offset, last offset + 1]`
  contains the mention's start gets a tag, not only the first one.
- Sentences are keyed by `min(token_idxs)`, not by the offset of the first
  token (`datasets/ncbi.py:105`). Two sentences with the same key collapse
  into the later one.
- Tag list `i` belongs to the sentence at position `i` of the sorted keys,
  not to the tokenizer's `i`-th sentence (`datasets/ncbi.py:106`, `134`).
  `AlignmentFacts.LabelInDocumentOrder` shows that the two coincide when the
  sentences come in ascending order of their keys.
  `AlignmentScenarios.Brca1ReversedSentences` shows a case where they do not.
- The start token is the first qualifying index (`datasets/ncbi.py:121-124`).
- The span end is `start + len(text)`; the recorded end offset is not used
  (`datasets/ncbi.py:118`).
- Inside the mention loop, `pmid` is rebound to the mention row's own first
  field (`datasets/ncbi.py:190`). Annotations are therefore filed under the
  row's PMID, not under the header's.

## Model

| member | source | states |
|---|---|---|
| NcbiTypes.Collect | datasets/ncbi.py:189-202 | The rows' results give success exactly when every row succeeds. The values then match the rows one to one. Otherwise the error is the one of the first failing row. |
| PyText.TrimLeftSpec | datasets/ncbi.py:174 | The left strip keeps a suffix that does not start with whitespace, and every character it drops is whitespace. |
| PyText.TrimRightSpec | datasets/ncbi.py:174 | The right strip keeps a prefix that does not end with whitespace, and every character it drops is whitespace. |
| PyText.StripSpec | datasets/ncbi.py:174 | `strip()` returns a slice `s[i..j]` with only whitespace outside it. The slice is empty or has non-whitespace ends. |
| PyText.StripBlank | datasets/ncbi.py:174-175 | A line strips to the empty string if and only if it is all whitespace. |
| PyText.StripIdempotent | datasets/ncbi.py:174 | Stripping twice gives the same result as stripping once. |
| PyText.Split | datasets/ncbi.py:179 | `split(sep)` returns at least one piece. No piece holds the separator, and joining the pieces with the separator gives back the input. |
| PyText.SplitJoin | datasets/ncbi.py:179 | Splitting a join of separator-free pieces gives back exactly those pieces. |
| PyText.Slice | datasets/ncbi.py:197 | `doc_str[start:end]` never fails and is never longer than the string. It is the plain slice for in-range bounds, the suffix from `start` when `end` is past the end, and empty when `0 <= end <= start` or when `start` is at or past the end. |
| PyText.SliceNegativeBounds | datasets/ncbi.py:197 | A negative bound counts from the end of the string. A bound below minus the length acts as 0, so such an `end` gives the empty slice. |
| PyText.ParseInt | datasets/ncbi.py:191-192 | `int()` succeeds exactly on a non-empty run of decimal digits, optionally preceded by a sign and whitespace, once surrounding whitespace is stripped. |
| PyText.SpaceAfterSign | datasets/ncbi.py:191-192 | `int("-" + w + str(n)) == -n` for any run `w` of whitespace, so `int(u"- 5") == -5`. |
| PyText.ParseShowInt | datasets/ncbi.py:191-192 | `int(str(n)) == n` for every integer `n`. |
| Alignment.Min | datasets/ncbi.py:105 | `min(token_idxs)` is an element of the offsets and is at most every one of them. |
| Alignment.StartScan | datasets/ncbi.py:120-124 | The scan from `j` returns the first index in `[j, n-2]` whose token contains the start, or `n-1` when no index in that range does. |
| Alignment.StartToken | datasets/ncbi.py:120-126 | `s_start` is the first `j` in `[0, n-2]` with `token_idxs[j] <= start < token_idxs[j+1]`, or `n-1` when there is none. |
| Alignment.EndScan | datasets/ncbi.py:127-132 | The extension moves the end past every consecutive token that the span end exceeds. It stops at the first token it does not exceed, and leaves the end unchanged when the first comparison fails. |
| Alignment.EndToken | datasets/ncbi.py:127-132 | `s_end` lies in `(s_start, n]`. It is `n` when the first comparison fails. Otherwise every token in `[s_start, s_end)` starts before the span end, and token `s_end`, if any, does not. |
| Alignment.LastPos | datasets/ncbi.py:105 | This is the position of the last sentence keyed by `x`, or -1 exactly when no sentence has that key. |
| Alignment.SentenceIndex | datasets/ncbi.py:105 | The dict's keys are the sentences' first offsets. Each key maps to the last sentence with that first offset. |
| Alignment.InsertSpec | datasets/ncbi.py:106 | Inserting into an ascending list of distinct offsets keeps it ascending and distinct. It adds the new offset and nothing else. |
| Alignment.SortedOffsets | datasets/ncbi.py:106 | `sorted(sents)` is strictly ascending and holds exactly the first offsets of the sentences. |
| Alignment.LabelAll | datasets/ncbi.py:108-134 | The mention loop appends to list `i` the tags of the covered mentions, in order. The sentence checked is the one at sorted position `i`. |
| Alignment.Label | datasets/ncbi.py:98-153 | There is one tag list per sentence. List `i` holds, in annotation order, the tags of the mentions covered by the sentence at sorted position `i`. Lists past the number of distinct keys are empty. |
| AlignmentFacts.MatchingAppend | datasets/ncbi.py:108-134 | The reference tag list of a concatenation of mentions is the concatenation of the two lists. |
| AlignmentFacts.MatchingElement | datasets/ncbi.py:116-134 | Every tag of a sentence's reference list is the tag of a mention that the sentence covers. |
| AlignmentFacts.MatchingNone | datasets/ncbi.py:116 | A sentence that covers none of the mentions gets no tag. |
| AlignmentFacts.SentenceAtIsInput | datasets/ncbi.py:105-112 | The sentence at sorted position `i` is one of the input sentences, and its first offset is the `i`-th smallest. |
| AlignmentFacts.LabelCandidacy | datasets/ncbi.py:110-116 | Sorted position `i` gets a mention's tag if and only if its sentence's closed range contains the mention's start. It gets at most one tag, and the tag is the mention's. |
| AlignmentFacts.LabelAppend | datasets/ncbi.py:108-134 | Labelling a concatenation of mentions concatenates the tag lists position by position, so tags keep annotation order. |
| AlignmentFacts.LabelKeepsDuplicates | datasets/ncbi.py:134 | A duplicated mention is tagged twice wherever it is tagged. |
| AlignmentFacts.LabelDropsUncovered | datasets/ncbi.py:110-116 | A mention whose start no sentence covers leaves every tag list as it was: no tag and no error. |
| AlignmentFacts.UncoveredNoTag | datasets/ncbi.py:116 | A mention that no sentence covers produces an empty list at every position. |
| AlignmentFacts.LabelTagInBounds | datasets/ncbi.py:116-134 | Every produced tag carries the text of a mention that its sentence covers, with `0 <= s_start < s_end <= len(words)`. This holds for any well-formed sentence. |
| AlignmentFacts.StartTokenUnique | datasets/ncbi.py:120-124 | With strictly increasing offsets, the token that contains the start is the start token. |
| AlignmentFacts.StartTokenFallback | datasets/ncbi.py:120-126 | When no interior token contains the start, the start token is the last one. |
| AlignmentFacts.SingleTokenSpan | datasets/ncbi.py:116-134 | A mention that starts in token `j` and ends by the next token's offset gets the span `(j, j+1)`. |
| AlignmentFacts.FirstOffsetOfIncreasing | datasets/ncbi.py:105 | With strictly increasing offsets, the key `min(token_idxs)` is the first token's offset. |
| AlignmentFacts.SentenceStartSpan | datasets/ncbi.py:116-134 | A mention at the sentence's first offset that is shorter than the gap to the second token gets the span `(0, 1)`. |
| AlignmentFacts.TagIgnoresEnd | datasets/ncbi.py:118 | The tag does not depend on the annotation's recorded end offset. |
| AlignmentFacts.EndFallback | datasets/ncbi.py:127-132 | When the span end does not pass the start token's offset, `s_end` stays `len(words)`. |
| AlignmentFacts.InsertLargest | datasets/ncbi.py:106 | Inserting an offset larger than all the others appends it. |
| AlignmentFacts.SortedOffsetsInOrder | datasets/ncbi.py:105-106 | When the first offsets already ascend in tokenizer order, sorting leaves them in that order. |
| AlignmentFacts.LabelInDocumentOrder | datasets/ncbi.py:103-134 | When the sentences come in ascending order of their keys, tag list `i` is the reference list of sentence `i`. |
| AlignmentScenarios.TwoInOrder | datasets/ncbi.py:105-134 | For two sentences in ascending order, each sentence gets its own reference list. |
| AlignmentScenarios.TwoReversed | datasets/ncbi.py:105-134 | For two sentences in descending order, position 0 gets the second sentence's list and position 1 the first's. |
| AlignmentScenarios.Brca1Scenario | datasets/ncbi.py:98-153 | "BRCA1" at offsets 0-5 of a two-sentence document becomes the tag ("BRCA1", (0, 1)) of sentence 0, and sentence 1 gets no tag. |
| AlignmentScenarios.BeyondLastSentence | datasets/ncbi.py:110-116 | A mention that starts after the last sentence produces no tag. |
| AlignmentScenarios.Brca1ReversedSentences | datasets/ncbi.py:105-134 | With the two sentences handed over in reverse, the BRCA1 tag still lands at position 0, next to the sentence that does not contain it. |
| AlignmentScenarios.TouchingSentencesBothTagged | datasets/ncbi.py:110-134 | A mention that starts where one sentence's range ends and the next begins is tagged in both sentences. |
| Loader.EmptyTables | datasets/ncbi.py:24-26 | The initial tables have all three partitions, each empty, and no documents and no annotations. |
| Loader.MembersAdd | datasets/ncbi.py:185 | Registering a PMID in one partition adds exactly that PMID to the registered set. |
| Loader.BaseName | datasets/ncbi.py:169 | `fname.split("/")[-1]` is the part of the path after its last `/`: a suffix of the path with no `/` in it, preceded by a `/` whenever it is not the whole path. |
| Loader.SplitRow | datasets/ncbi.py:179 | A title or abstract line is split on `\|` into `\|`-free fields, and its second field is "t" or "a". Any other line is split on tabs into tab-free fields. In both cases joining the fields gives back the line. |
| Loader.LineRow | datasets/ncbi.py:174-175 | A line gives no row if and only if it is all whitespace. |
| Loader.GroupFrom | datasets/ncbi.py:172-181 | The groups, laid end to end, are the rows in hand followed by the rows of the non-blank lines. Every group but the last is non-empty. |
| Loader.Groups | datasets/ncbi.py:172-181 | A file's groups, laid end to end, are the rows of its non-blank lines in order. Only the last group can be empty. |
| Loader.BlankLineCuts | datasets/ncbi.py:175-180 | A blank line after a run of non-blank lines closes the group in hand, holding exactly those rows. Grouping then starts afresh on the lines after it. |
| Loader.BlankLineSkipped | datasets/ncbi.py:175-178 | A blank line with no group in hand, such as a repeated blank line, is skipped. |
| Loader.FirstDocumentAtBlankLine | datasets/ncbi.py:172-181 | When a file's first lines are non-blank and are followed by a blank line, those lines are its first document, and the rest of the file is grouped on its own. |
| Loader.NoBlankLineOneGroup | datasets/ncbi.py:173-181 | A run of lines without a blank one stays in one group. |
| Loader.BlankLastLine | datasets/ncbi.py:173-181 | When the last line is blank, the last group is empty. |
| Loader.TrailingBlankLineEmptyGroup | datasets/ncbi.py:173-181 | A file whose last line is blank ends with an empty document. |
| Loader.TrailingBlankLineRejected | datasets/ncbi.py:181-184 | A file whose last line is blank is rejected, because its empty last document has no header. |
| Loader.ParseMentionSpec | datasets/ncbi.py:189-202 | A mention row is accepted exactly when it has six fields, integer offsets, and text equal to `doc_str[start:end]`. An accepted row's annotation carries the row's PMID, text, type and offsets, and is a title mention exactly when `end <= len(title)`. Each kind of rejection gives its own error. |
| Loader.ParseMentions | datasets/ncbi.py:189-202 | The rows parse exactly when each row does. The values then match the rows one to one. Otherwise the error is the first failing row's. |
| Loader.ParseMentionsAccepted | datasets/ncbi.py:189-202 | A document's mention rows parse exactly when every row passes the sanity check. |
| Loader.Register | datasets/ncbi.py:204-207 | The annotation table gets a list for every PMID the mentions name, and no other new key. |
| Loader.RegisterAppends | datasets/ncbi.py:204-207 | Each PMID's list gets exactly its own mentions appended, in row order, after the entries it had. A PMID has a list afterwards exactly when it had one or some mention names it. |
| Loader.PmidsOwned | datasets/ncbi.py:204-207 | The mentions name a PMID exactly when some annotation is filed under it. |
| Loader.ProcessDocument | datasets/ncbi.py:183-207 | A document is accepted exactly when it has its header and every mention row passes. A missing header and the first bad row each give their error. On success the PMID is registered in the partition, the raw title and body are stored, and the mentions are appended. |
| Loader.ProcessDocumentContents | datasets/ncbi.py:183-207 | On success the document has its header, its PMID joins the partition, its record becomes the raw title and body, and every PMID's list gains the document's parsed mentions filed under it. The PMID has a list afterwards exactly when it had one or the document files a mention under it. |
| Loader.ProcessDocuments | datasets/ncbi.py:183-207 | A file's documents are accepted exactly when each one is. All partitions stay present, and the documents stay exactly the registered PMIDs. `Loader.ProcessDocumentsContents` states what the run stores. |
| Loader.ProcessedHeaders | datasets/ncbi.py:183-184 | A successful run over a file's documents found the header of every one. |
| Loader.ProcessedPartitions | datasets/ncbi.py:183-185 | After a file's documents, the partition holds its old PMIDs plus every header PMID, and no other partition changes. |
| Loader.ProcessedKeys | datasets/ncbi.py:183-186 | After a file's documents, the records are held for the old PMIDs plus every header PMID. |
| Loader.ProcessedRecord | datasets/ncbi.py:183-186 | A PMID no header names keeps its record. A header PMID's record is the raw title and body of the last document whose header names it. |
| Loader.ProcessedRecords | datasets/ncbi.py:183-186 | The records after a file's documents: the header PMIDs added, the last document naming each one winning, every other record kept. |
| Loader.ProcessedAnnotations | datasets/ncbi.py:187-207 | After a file's documents, every PMID's list is its old list followed by the documents' mentions filed under it, document by document and row by row. A PMID has a list afterwards exactly when it had one or the documents file a mention under it. |
| Loader.ProcessDocumentsContents | datasets/ncbi.py:183-207 | All of the above for one file's documents: partition, records and annotation lists. |
| Loader.LoadFile | datasets/ncbi.py:168-181 | A file with an unknown name fails. Otherwise the file is accepted exactly when every document in it is, and the two invariants are kept. `Loader.LoadFileContents` states what the file stores. |
| Loader.LoadFilePartitions | datasets/ncbi.py:169-185 | After an accepted file, the partition its name maps to gains the file's header PMIDs, and every other partition is unchanged. |
| Loader.LoadFileRecords | datasets/ncbi.py:169-186 | After an accepted file, records exist for the old PMIDs plus the file's header PMIDs. Each header PMID holds the last matching document's raw title and body, and every other record is kept. |
| Loader.LoadFileAnnotations | datasets/ncbi.py:169-207 | After an accepted file, every PMID's list is its old list followed by the file's mentions filed under it. A PMID has a list afterwards exactly when it had one or the file files a mention under it. |
| Loader.LoadFileContents | datasets/ncbi.py:169-207 | An accepted file has a known name and headers on all its documents, and its partitions, records and annotation lists change as the three lemmas above say. |
| Loader.LoadFilesFrom | datasets/ncbi.py:168-210 | The load succeeds exactly when every file is accepted, and it keeps both invariants. `Loader.LoadFilesContents` states what the files store. |
| Loader.LoadedHeaders | datasets/ncbi.py:168-184 | A successful load found a header on every document of every file. |
| Loader.LoadedPartitions | datasets/ncbi.py:168-185 | After all the files, each partition holds its old PMIDs plus the header PMIDs of the files whose name maps to it. |
| Loader.LoadedKeys | datasets/ncbi.py:168-186 | After all the files, the records are held for the old PMIDs plus every header PMID of every file. |
| Loader.LoadedRecord | datasets/ncbi.py:168-186 | After all the files, a PMID no header names keeps its record. A header PMID's record is the raw title and body of some document whose header names it. |
| Loader.LoadedRecords | datasets/ncbi.py:168-186 | The records after all the files: keys and contents as in the two lemmas above. |
| Loader.LoadedAnnotationLists | datasets/ncbi.py:168-207 | After all the files, every PMID's list is its old list followed by the files' mentions filed under it, in file order. A PMID has a list afterwards exactly when it had one or the files file a mention under it. |
| Loader.LoadFilesContents | datasets/ncbi.py:168-207 | All of the above for the whole listing: partitions, records and annotation lists. |
| Loader.AllFilesAcceptedEach | datasets/ncbi.py:168-210 | A whole listing is accepted exactly when each file is accepted on its own, so acceptance does not depend on the files before. |
| Loader.LoadFiles | datasets/ncbi.py:159-210 | The load succeeds exactly when every file is accepted, so a failed sanity check anywhere stops it. After a successful load every partition is present, and the loaded documents are exactly the PMIDs registered in some partition. `Loader.LoadedPartitionTable`, `Loader.LoadedRecordTable` and `Loader.LoadedAnnotationTable` state what the tables hold. |
| Loader.LoadedPartitionTable | datasets/ncbi.py:159-185 | After a successful load, each partition is exactly the header PMIDs of the files whose name maps to it. |
| Loader.LoadedRecordTable | datasets/ncbi.py:159-186 | After a successful load there is a record exactly for each header PMID, and every record is raw: the title and body of a document naming that PMID. |
| Loader.LoadedAnnotationTable | datasets/ncbi.py:159-207 | After a successful load, every PMID's list is exactly the files' mentions filed under it, in file order, and a PMID is a key of the annotation table exactly when some mention is filed under it. |
| Loader.LoadedAnnotationsFaithful | datasets/ncbi.py:187-207 | Every annotation of a freshly loaded corpus has text equal to the slice of some loaded document's string at its offsets, and is a title mention exactly when it ends inside that document's title. |
| Loader.DocumentAnnotationsFaithful | datasets/ncbi.py:187-207 | Every annotation a document adds has text equal to `doc_str[start:end]`. It is a title mention exactly when it ends inside the title. |
| Loader.MentionPairsFaithful | datasets/ncbi.py:187-207 | A mention a document contributes comes from a document with a header, and agrees with that document's title and string. |
| LoaderScenarios.TitleLineFields | datasets/ncbi.py:179 | The line `1\|t\|Tumor` splits into the fields "1", "t" and "Tumor". |
| LoaderScenarios.SpacedSign | datasets/ncbi.py:191-192 | The offset field "- 5" is read as -5. |
| LoaderScenarios.TumorRows | datasets/ncbi.py:189-202 | For "Tumor Big", the row `1 0 5 Tumor Disease D001` gives a title mention. With end offset 4 the same row fails the sanity check. |
| LoaderScenarios.TumorAccepted | datasets/ncbi.py:183-207 | The accepted document files the one title mention under PMID "1". |
| LoaderScenarios.TumorCorrupted | datasets/ncbi.py:197-202 | With end offset 4 the load stops, naming the PMID, the text "Tumor" and the slice "Tumo". |
| Lookup.TagsFor | datasets/ncbi.py:52-56 | A PMID without annotations gets one empty list per sentence. A PMID with annotations gets `_label`'s lists, which fail only on sentences the aligner cannot index. |
| Lookup.GetItem | datasets/ncbi.py:32-96 | On a hit the cached record is returned and also stored as the PMID's record. A PMID that is neither cached nor loaded is not found, and the state is unchanged. On a miss, the record's title and body are kept, the sentences are the tokenizer's output for `title + " " + body`, the tags are the aligned ones, and the record goes to both the table and the cache. |
| Lookup.LookupStores | datasets/ncbi.py:76-77 | After a successful lookup, both the record and the cache hold the returned document. |
| Lookup.LookupIdempotent | datasets/ncbi.py:34-38 | A second lookup of the same PMID returns the same document and leaves the state as it was, whatever tokenizer it is given. |
| Lookup.HitIgnoresParser | datasets/ncbi.py:36-38 | A cache hit does not depend on the tokenizer. |
| Lookup.LookupFrame | datasets/ncbi.py:32-96 | A lookup changes no partition and no annotation, and no other PMID's record or cache entry. |
| Lookup.LoadedCorpusAligned | datasets/ncbi.py:159-210 | A corpus just read from the files, with an aligned cache, is aligned. Every loaded record is raw, and a raw record carries no tags to misalign. |
| Lookup.LookupKeepsAligned | datasets/ncbi.py:50-56 | Lookups keep one tag list per sentence in every record and cached document, and what they return is aligned too. |
| Lookup.LookupOfLoaded | datasets/ncbi.py:39-56 | A loaded PMID with nothing cached is found. It fails only when it has annotations and the tokenizer's sentences cannot be aligned. |
| Lookup.LookupTagsInDocumentOrder | datasets/ncbi.py:47-54 | For sentences that ascend by key, tag list `i` of a fresh parse holds the PMID's mentions covered by sentence `i`, in annotation order. |

## Left out

- Pickle files, `os.path.exists`, `open`, `glob` and `codecs` decoding are filesystem I/O. The cache is a map, and the files are a sequence of (path, lines) pairs in listing order.
- The tokenizer `self.parser.parse` is external code. It is a parameter of the lookup.
- `print` output is not modelled. It does not change any state.
- The triple-quoted blocks inside `__getitem__` and `_label` are dead code.
- The `statsmodels` import is unused.
- `__iter__` is not modelled, because it only walks the documents in dict order.
- The `Corpus` superclass and `self.encoding` are not part of this model.
- `umls_kb_tools/create_dictionary.py` is not part of this model.
- Alignment.Label: requires every sentence to have at least one offset and one offset per word. Python raises an error on an empty offset list and may raise one on unequal lengths.
- Lookup.TagsFor: fails with `MalformedSentence` on every sentence list that is not well formed. Python would still align some sentences whose word and offset lists differ in length.
- Lookup.GetItem: leaves the state unchanged when alignment fails. Python would already have written the sentences and an empty tag list into the record before raising.
- PyText.ParseInt: accepts ASCII digits only. Python 2's `int()` on unicode also accepts other Unicode decimal digits.
- PyText.IsSpace: lists the whitespace characters of Python 2.7's `unicode.isspace` (Unicode 5.2) by hand.
- Strings are sequences of code points. On a narrow Python 2 build, `len()`, the offsets and slicing count UTF-16 code units, so characters outside the Basic Multilingual Plane count twice there.
- Loader.ParseMention: its contract lives in the lemma `Loader.ParseMentionSpec`.
- Loader.LoadedRecord: names some document whose header gives the PMID, not which one. When several files name a PMID, Python keeps the record of the last such file. The per-file lemma `Loader.ProcessedRecord` does state that the last document wins.
- Loader.LoadedRecords: inherits the same gap from `Loader.LoadedRecord`.
- Loader.LoadFilesContents: inherits the same gap from `Loader.LoadedRecord`.
- Loader.LoadedRecordTable: inherits the same gap from `Loader.LoadedRecord`.
- Partition membership is a set of PMIDs. Python uses a dict whose values are all 1.

=== FILE: alignment.dfy ===
/**
 The annotation-to-token alignment of the corpus reader (`_label`): every
 gold mention, given as a character offset, becomes a half-open token span
 `[sStart, sEnd)` inside each sentence whose character range contains the
 mention's start.

 The sentences are looked up by the smallest token offset of each one, and
 the tag lists are indexed by the position of that offset in ascending
 order, not by the sentence's own position in the tokenizer's output.
 */
module Alignment {
  import opened NcbiTypes

  // ---------------------------------------------------------------------
  // Sentences

  /** What the aligner indexes without failing: at least one token, and one
      offset per word. */
  predicate WellFormed(s: Sentence) {
    |s.tokenIdxs| > 0 && |s.words| == |s.tokenIdxs|
  }

  predicate AllWellFormed(ss: seq<Sentence>) {
    forall i :: 0 <= i < |ss| ==> WellFormed(ss[i])
  }

  predicate StrictlyIncreasing(xs: seq<int>) {
    forall i, j :: 0 <= i < j < |xs| ==> xs[i] < xs[j]
  }

  /** `min(xs)`. */
  function Min(xs: seq<int>): (m: int)
    requires |xs| > 0
    ensures m in xs
    ensures forall k :: 0 <= k < |xs| ==> m <= xs[k]
  {
    if |xs| == 1 then xs[0]
    else
      var m := Min(xs[1..]);
      assert forall k :: 1 <= k < |xs| ==> xs[k] == xs[1..][k - 1];
      if xs[0] <= m then xs[0] else m
  }

  /** The key a sentence is filed under: its smallest token offset. */
  function FirstOffset(s: Sentence): int
    requires WellFormed(s)
  {
    Min(s.tokenIdxs)
  }

  /** One past the offset of the sentence's last token. */
  function EndOffset(s: Sentence): int
    requires WellFormed(s)
  {
    s.tokenIdxs[|s.tokenIdxs| - 1] + 1
  }

  /** A sentence is a candidate for a mention starting at `a` when `a` lies in
      the closed range `[FirstOffset, EndOffset]`. */
  predicate Covers(s: Sentence, a: int)
    requires WellFormed(s)
  {
    FirstOffset(s) <= a <= EndOffset(s)
  }

  // ---------------------------------------------------------------------
  // Token span inside one sentence

  /** Token `j` is the one a mention starting at `a` falls into: its offset
      is at most `a` and the next token's offset is beyond `a`. */
  predicate InToken(t: seq<int>, j: int, a: int)
    requires 0 <= j < |t| - 1
  {
    t[j] <= a < t[j + 1]
  }

  /** The start-token search from index `j` on: the first qualifying index
      in `[j, n-2]`, or `n-1` when none qualifies. */
  function StartScan(t: seq<int>, n: nat, a: int, j: nat): (idx: nat)
    requires 0 < n <= |t| && j <= n - 1
    ensures j <= idx <= n - 1
    ensures idx < n - 1 ==> InToken(t, idx, a)
    ensures forall k :: j <= k < idx && k < n - 1 ==> !InToken(t, k, a)
    decreases n - j
  {
    if j == n - 1 then n - 1
    else if InToken(t, j, a) then j
    else StartScan(t, n, a, j + 1)
  }

  /** The index of the token a mention starting at `a` begins in. */
  function StartToken(s: Sentence, a: int): (idx: nat)
    requires WellFormed(s)
    ensures idx < |s.words|
    ensures idx < |s.words| - 1 ==> InToken(s.tokenIdxs, idx, a)
    ensures forall k :: 0 <= k < idx && k < |s.words| - 1 ==> !InToken(s.tokenIdxs, k, a)
  {
    StartScan(s.tokenIdxs, |s.words|, a, 0)
  }

  /** The end-token extension from index `j` on, where `cur` is the end found
      so far: when the mention end is beyond token `j` the end moves to
      `j + 1` and the scan goes on; the first token it does not pass stops
      the scan and leaves the end where it was. */
  function EndScan(t: seq<int>, n: nat, e: int, j: nat, cur: nat): (r: nat)
    requires n <= |t| && j <= n && cur <= n
    ensures r <= n
    ensures !(j < n && e > t[j]) ==> r == cur
    ensures j < n && e > t[j] ==> j < r && (forall k :: j <= k < r ==> e > t[k]) && (r == n || e <= t[r])
    decreases n - j
  {
    if j < n && e > t[j] then EndScan(t, n, e, j + 1, j + 1) else cur
  }

  /** The exclusive end token of a mention that starts in token `idx` and
      whose character span ends at `e`. */
  function EndToken(s: Sentence, idx: nat, e: int): (r: nat)
    requires WellFormed(s) && idx < |s.words|
    ensures idx < r <= |s.words|
    ensures e <= s.tokenIdxs[idx] ==> r == |s.words|
    ensures e > s.tokenIdxs[idx] ==>
      (forall k :: idx <= k < r ==> e > s.tokenIdxs[k]) && (r == |s.words| || e <= s.tokenIdxs[r])
  {
    EndScan(s.tokenIdxs, |s.words|, e, idx, |s.words|)
  }

  /** The tag of mention `a` inside sentence `s`. The span ends at
      `a.start + |a.text|`; `a.end` is not consulted. */
  function TagFor(a: Annotation, s: Sentence): Tag
    requires WellFormed(s)
  {
    var idx := StartToken(s, a.start);
    Tag(a.text, idx, EndToken(s, idx, a.start + |a.text|))
  }

  // ---------------------------------------------------------------------
  // Sentence index and sorted offsets

  /** The keys of the sentence index: every sentence's first offset. */
  function FirstOffsets(ss: seq<Sentence>): set<int>
    requires AllWellFormed(ss)
  {
    set i | 0 <= i < |ss| :: FirstOffset(ss[i])
  }

  /** The first offsets of a nonempty sequence: those of all but the last
      sentence, and the last sentence's. */
  lemma FirstOffsetsSnoc(ss: seq<Sentence>)
    requires AllWellFormed(ss) && |ss| > 0
    ensures AllWellFormed(ss[..|ss| - 1])
    ensures FirstOffsets(ss) == FirstOffsets(ss[..|ss| - 1]) + {FirstOffset(ss[|ss| - 1])}
  {
    var init := ss[..|ss| - 1];
    assert forall i :: 0 <= i < |init| ==> init[i] == ss[i];
  }

  /** The position of the last sentence whose first offset is `x`, or -1. */
  function LastPos(ss: seq<Sentence>, x: int): (p: int)
    requires AllWellFormed(ss)
    ensures -1 <= p < |ss|
    ensures p == -1 <==> x !in FirstOffsets(ss)
    ensures 0 <= p ==> FirstOffset(ss[p]) == x
    ensures forall q :: p < q < |ss| ==> FirstOffset(ss[q]) != x
  {
    if |ss| == 0 then -1
    else if FirstOffset(ss[|ss| - 1]) == x then |ss| - 1
    else
      var init := ss[..|ss| - 1];
      FirstOffsetsSnoc(ss);
      LastPos(init, x)
  }

  /** The last sentence owns its first offset; every other offset keeps its
      position among the earlier sentences. */
  lemma LastPosSnoc(ss: seq<Sentence>)
    requires AllWellFormed(ss) && |ss| > 0
    ensures AllWellFormed(ss[..|ss| - 1])
    ensures LastPos(ss, FirstOffset(ss[|ss| - 1])) == |ss| - 1
    ensures forall x :: x != FirstOffset(ss[|ss| - 1]) ==> LastPos(ss, x) == LastPos(ss[..|ss| - 1], x)
  {
  }

  /** `{min(s.token_idxs): s for s in sentences}`: a later sentence with the
      same first offset replaces an earlier one. */
  function SentenceIndex(ss: seq<Sentence>): (m: map<int, Sentence>)
    requires AllWellFormed(ss)
    ensures m.Keys == FirstOffsets(ss)
    ensures forall x :: x in m ==> 0 <= LastPos(ss, x) && m[x] == ss[LastPos(ss, x)]
  {
    if |ss| == 0 then map[]
    else
      var init := ss[..|ss| - 1];
      var s := ss[|ss| - 1];
      FirstOffsetsSnoc(ss);
      LastPosSnoc(ss);
      SentenceIndex(init)[FirstOffset(s) := s]
  }

  /** Insert `k` into an ascending sequence of distinct offsets. */
  function Insert(xs: seq<int>, k: int): seq<int> {
    if |xs| == 0 then [k]
    else if k == xs[0] then xs
    else if k < xs[0] then [k] + xs
    else [xs[0]] + Insert(xs[1..], k)
  }

  /** Inserting keeps the offsets ascending and distinct, and adds `k` and
      nothing else. */
  lemma {:induction false} InsertSpec(xs: seq<int>, k: int)
    requires StrictlyIncreasing(xs)
    ensures StrictlyIncreasing(Insert(xs, k))
    ensures forall x :: x in Insert(xs, k) <==> x in xs || x == k
    decreases |xs|
  {
    if |xs| > 0 && k > xs[0] {
      var tail := xs[1..];
      assert StrictlyIncreasing(tail) by {
        assert forall i :: 0 <= i < |tail| ==> tail[i] == xs[i + 1];
      }
      InsertSpec(tail, k);
      var rest := Insert(tail, k);
      var r := [xs[0]] + rest;
      assert xs == [xs[0]] + tail;
      forall j | 0 <= j < |rest|
        ensures xs[0] < rest[j]
      {
        assert rest[j] in rest;
        if rest[j] != k {
          var m :| 0 <= m < |tail| && tail[m] == rest[j];
          assert tail[m] == xs[m + 1];
        }
      }
      forall i, j | 0 <= i < j < |r|
        ensures r[i] < r[j]
      {
        assert r[j] == rest[j - 1];
        if i > 0 {
          assert r[i] == rest[i - 1];
        }
      }
    }
  }

  /** The first offsets of `ss` in ascending order, each once. */
  function SortedOffsets(ss: seq<Sentence>): (r: seq<int>)
    requires AllWellFormed(ss)
    ensures StrictlyIncreasing(r)
    ensures forall x :: x in r <==> x in FirstOffsets(ss)
  {
    if |ss| == 0 then []
    else
      var init := ss[..|ss| - 1];
      FirstOffsetsSnoc(ss);
      InsertSpec(SortedOffsets(init), FirstOffset(ss[|ss| - 1]));
      Insert(SortedOffsets(init), FirstOffset(ss[|ss| - 1]))
  }

  // ---------------------------------------------------------------------
  // Labelling

  /** The reference meaning of one tag list: the tags of the mentions that
      sentence `s` covers, in annotation order, duplicates kept. */
  function Matching(anns: seq<Annotation>, s: Sentence): seq<Tag>
    requires WellFormed(s)
  {
    if |anns| == 0 then []
    else (if Covers(s, anns[0].start) then [TagFor(anns[0], s)] else []) + Matching(anns[1..], s)
  }

  /** The sentence whose tags go to sorted position `i`. */
  function SentenceAt(index: map<int, Sentence>, offsets: seq<int>, i: nat): (s: Sentence)
    requires IndexWellFormed(index, offsets)
    requires i < |offsets|
    ensures WellFormed(s)
  {
    var x := offsets[i];
    assert x in index;
    assert WellFormed(index[x]);
    index[x]
  }

  predicate IndexWellFormed(index: map<int, Sentence>, offsets: seq<int>) {
    && (forall i :: 0 <= i < |offsets| ==> offsets[i] in index)
    && (forall x :: x in index ==> WellFormed(index[x]))
  }

  /** One pass of the sentence loop for mention `a`: every sorted position
      whose sentence covers `a.start` gets the mention's tag appended. */
  function AddLabel(a: Annotation, index: map<int, Sentence>, offsets: seq<int>, tags: seq<seq<Tag>>): (r: seq<seq<Tag>>)
    requires IndexWellFormed(index, offsets)
    ensures |r| == |tags|
  {
    seq(|tags|, i requires 0 <= i < |tags| =>
      if i < |offsets| && Covers(SentenceAt(index, offsets, i), a.start)
      then tags[i] + [TagFor(a, SentenceAt(index, offsets, i))]
      else tags[i])
  }

  /** The mention loop: the mentions of `anns` are added in order. */
  function LabelAll(anns: seq<Annotation>, index: map<int, Sentence>, offsets: seq<int>, tags: seq<seq<Tag>>): (r: seq<seq<Tag>>)
    requires IndexWellFormed(index, offsets)
    ensures |r| == |tags|
    ensures forall i :: 0 <= i < |tags| ==>
      r[i] == tags[i] + (if i < |offsets| then Matching(anns, SentenceAt(index, offsets, i)) else [])
  {
    if |anns| == 0 then tags
    else
      var r := LabelAll(anns[1..], index, offsets, AddLabel(anns[0], index, offsets, tags));
      assert forall i :: 0 <= i < |tags| ==>
        r[i] == tags[i] + (if i < |offsets| then Matching(anns, SentenceAt(index, offsets, i)) else []) by {
        forall i | 0 <= i < |tags|
          ensures r[i] == tags[i] + (if i < |offsets| then Matching(anns, SentenceAt(index, offsets, i)) else [])
        {
          if i < |offsets| {
            var s := SentenceAt(index, offsets, i);
            var head := if Covers(s, anns[0].start) then [TagFor(anns[0], s)] else [];
            assert AddLabel(anns[0], index, offsets, tags)[i] == tags[i] + head;
            assert r[i] == (tags[i] + head) + Matching(anns[1..], s);
            assert Matching(anns, s) == head + Matching(anns[1..], s);
          }
        }
      }
      r
  }

  /** The sentence whose tags go to sorted position `i`: the one the
      index maps the `i`-th smallest first offset to. */
  function SortedSentence(ss: seq<Sentence>, i: nat): (s: Sentence)
    requires AllWellFormed(ss)
    requires i < |SortedOffsets(ss)|
    ensures WellFormed(s)
  {
    assert IndexWellFormed(SentenceIndex(ss), SortedOffsets(ss));
    SentenceAt(SentenceIndex(ss), SortedOffsets(ss), i)
  }

  /** `_label(annotations, sentences)`: one tag list per sentence; position
      `i` holds the tags of the mentions covered by the sentence filed under
      the `i`-th smallest first offset, and positions past the number of
      distinct first offsets stay empty. */
  function Label(anns: seq<Annotation>, ss: seq<Sentence>): (tags: seq<seq<Tag>>)
    requires AllWellFormed(ss)
    ensures |tags| == |ss|
    ensures forall i :: 0 <= i < |ss| ==>
      tags[i] == (if i < |SortedOffsets(ss)| then Matching(anns, SortedSentence(ss, i)) else [])
  {
    var index := SentenceIndex(ss);
    var offsets := SortedOffsets(ss);
    assert IndexWellFormed(index, offsets);
    LabelAll(anns, index, offsets, seq(|ss|, _ => []))
  }
}

=== FILE: alignment_facts.dfy ===
/**
 What the alignment promises: one tag list per sentence, which sentences
 receive a mention's tag, the order and multiplicity of the tags, the
 bounds of every span, and the boundary cases of the span search.
 */
module AlignmentFacts {
  import opened NcbiTypes
  import opened Alignment

  // ---------------------------------------------------------------------
  // The reference tag list

  lemma {:induction false} MatchingAppend(a1: seq<Annotation>, a2: seq<Annotation>, s: Sentence)
    requires WellFormed(s)
    ensures Matching(a1 + a2, s) == Matching(a1, s) + Matching(a2, s)
    decreases |a1|
  {
    if |a1| > 0 {
      assert (a1 + a2)[1..] == a1[1..] + a2;
      MatchingAppend(a1[1..], a2, s);
    } else {
      assert a1 + a2 == a2;
    }
  }

  /** Every tag of the reference list is the tag of a mention the sentence
      covers. */
  lemma {:induction false} MatchingElement(anns: seq<Annotation>, s: Sentence, k: nat)
    requires WellFormed(s)
    requires k < |Matching(anns, s)|
    ensures exists m :: 0 <= m < |anns| && Covers(s, anns[m].start) && Matching(anns, s)[k] == TagFor(anns[m], s)
    decreases |anns|
  {
    var head := if Covers(s, anns[0].start) then [TagFor(anns[0], s)] else [];
    assert Matching(anns, s) == head + Matching(anns[1..], s);
    if k < |head| {
      assert Matching(anns, s)[k] == TagFor(anns[0], s);
    } else {
      MatchingElement(anns[1..], s, k - |head|);
      var m :| 0 <= m < |anns[1..]| && Covers(s, anns[1..][m].start)
        && Matching(anns[1..], s)[k - |head|] == TagFor(anns[1..][m], s);
      assert anns[1..][m] == anns[m + 1];
    }
  }

  /** The reference list is empty when the sentence covers none of the
      mentions. */
  lemma {:induction false} MatchingNone(anns: seq<Annotation>, s: Sentence)
    requires WellFormed(s)
    requires forall m :: 0 <= m < |anns| ==> !Covers(s, anns[m].start)
    ensures Matching(anns, s) == []
    decreases |anns|
  {
    if |anns| > 0 {
      MatchingNone(anns[1..], s);
    }
  }

  // ---------------------------------------------------------------------
  // Which sentence gets a tag

  /** The sentence at sorted position `i` is one of the input sentences,
      filed under the `i`-th smallest first offset. */
  lemma SentenceAtIsInput(ss: seq<Sentence>, i: nat)
    requires AllWellFormed(ss)
    requires i < |SortedOffsets(ss)|
    ensures exists p :: (0 <= p < |ss| && SortedSentence(ss, i) == ss[p]
      && FirstOffset(ss[p]) == SortedOffsets(ss)[i])
  {
    var offsets := SortedOffsets(ss);
    assert offsets[i] in offsets;
    var p := LastPos(ss, offsets[i]);
    assert SortedSentence(ss, i) == ss[p];
  }

  /** Candidacy for one mention: sorted position `i` gets exactly one tag,
      the mention's, if and only if its sentence's closed range
      `[first offset, last offset + 1]` contains the mention's start; there
      is no early exit, so every such position gets it. */
  lemma LabelCandidacy(a: Annotation, ss: seq<Sentence>, i: nat)
    requires AllWellFormed(ss)
    requires i < |ss|
    ensures |Label([a], ss)[i]| <= 1
    ensures |Label([a], ss)[i]| == 1 <==>
      i < |SortedOffsets(ss)| && Covers(SortedSentence(ss, i), a.start)
    ensures |Label([a], ss)[i]| == 1 ==>
      Label([a], ss)[i][0] == TagFor(a, SortedSentence(ss, i))
  {
    if i < |SortedOffsets(ss)| {
      var s := SortedSentence(ss, i);
      assert Matching([a], s) == (if Covers(s, a.start) then [TagFor(a, s)] else []) + Matching([], s);
    }
  }

  /** Labelling a concatenation appends the tag lists position by position:
      tags keep annotation order and nothing is merged or dropped. */
  lemma LabelAppend(a1: seq<Annotation>, a2: seq<Annotation>, ss: seq<Sentence>, i: nat)
    requires AllWellFormed(ss)
    requires i < |ss|
    ensures Label(a1 + a2, ss)[i] == Label(a1, ss)[i] + Label(a2, ss)[i]
  {
    if i < |SortedOffsets(ss)| {
      MatchingAppend(a1, a2, SortedSentence(ss, i));
    }
  }

  /** A duplicated mention is tagged twice wherever it is tagged. */
  lemma LabelKeepsDuplicates(a: Annotation, ss: seq<Sentence>, i: nat)
    requires AllWellFormed(ss)
    requires i < |ss|
    ensures Label([a, a], ss)[i] == Label([a], ss)[i] + Label([a], ss)[i]
  {
    LabelAppend([a], [a], ss, i);
    assert [a] + [a] == [a, a];
  }

  /** A mention whose start no sentence covers is dropped without a trace. */
  lemma LabelDropsUncovered(anns: seq<Annotation>, a: Annotation, ss: seq<Sentence>)
    requires AllWellFormed(ss)
    requires forall p :: 0 <= p < |ss| ==> !Covers(ss[p], a.start)
    ensures Label(anns + [a], ss) == Label(anns, ss)
  {
    forall i | 0 <= i < |ss|
      ensures Label(anns + [a], ss)[i] == Label(anns, ss)[i]
    {
      DropsUncoveredAt(anns, a, ss, i);
    }
  }

  lemma DropsUncoveredAt(anns: seq<Annotation>, a: Annotation, ss: seq<Sentence>, i: nat)
    requires AllWellFormed(ss)
    requires forall p :: 0 <= p < |ss| ==> !Covers(ss[p], a.start)
    requires i < |ss|
    ensures Label(anns + [a], ss)[i] == Label(anns, ss)[i]
  {
    LabelAppend(anns, [a], ss, i);
    UncoveredNoTag(a, ss, i);
    assert Label(anns, ss)[i] + [] == Label(anns, ss)[i];
  }

  lemma UncoveredNoTag(a: Annotation, ss: seq<Sentence>, i: nat)
    requires AllWellFormed(ss)
    requires forall p :: 0 <= p < |ss| ==> !Covers(ss[p], a.start)
    requires i < |ss|
    ensures Label([a], ss)[i] == []
  {
    var offsets := SortedOffsets(ss);
    if i < |offsets| {
      var s := SortedSentence(ss, i);
      SentenceAtIsInput(ss, i);
      assert !Covers(s, a.start);
      LabelCandidacy(a, ss, i);
    }
  }

  /** Every produced tag carries the text of a mention its sentence covers
      and a non-empty span inside that sentence: `0 <= sStart < sEnd <= n`.
      No ordering of the token offsets is needed for this. */
  lemma LabelTagInBounds(anns: seq<Annotation>, ss: seq<Sentence>, i: nat)
    requires AllWellFormed(ss)
    requires i < |ss|
    ensures Label(anns, ss)[i] != [] ==> i < |SortedOffsets(ss)|
    ensures Label(anns, ss)[i] != [] ==>
      var s := SortedSentence(ss, i);
      forall t :: t in Label(anns, ss)[i] ==>
        && 0 <= t.sStart < t.sEnd <= |s.words|
        && exists m :: 0 <= m < |anns| && Covers(s, anns[m].start) && t == TagFor(anns[m], s)
  {
    if i < |SortedOffsets(ss)| {
      var s := SortedSentence(ss, i);
      var tags := Label(anns, ss)[i];
      forall t | t in tags
        ensures 0 <= t.sStart < t.sEnd <= |s.words|
        ensures exists m :: 0 <= m < |anns| && Covers(s, anns[m].start) && t == TagFor(anns[m], s)
      {
        var k :| 0 <= k < |tags| && tags[k] == t;
        MatchingElement(anns, s, k);
      }
    }
  }

  // ---------------------------------------------------------------------
  // The span inside a sentence

  /** With strictly increasing offsets at most one token contains the start,
      so the first qualifying token is also the last one. */
  lemma StartTokenUnique(s: Sentence, a: int, j: nat)
    requires WellFormed(s) && StrictlyIncreasing(s.tokenIdxs)
    requires j < |s.words| - 1 && InToken(s.tokenIdxs, j, a)
    ensures StartToken(s, a) == j
  {
  }

  /** When no interior token contains the start, the start falls back to the
      last token. */
  lemma StartTokenFallback(s: Sentence, a: int)
    requires WellFormed(s)
    requires forall j :: 0 <= j < |s.words| - 1 ==> !InToken(s.tokenIdxs, j, a)
    ensures StartToken(s, a) == |s.words| - 1
  {
  }

  /** A mention that starts in token `j` and ends before the next token's
      offset is aligned to the single-token span `(j, j + 1)`. */
  lemma SingleTokenSpan(a: Annotation, s: Sentence, j: nat)
    requires WellFormed(s) && StrictlyIncreasing(s.tokenIdxs)
    requires j < |s.words| && s.tokenIdxs[j] <= a.start
    requires j < |s.words| - 1 ==> a.start + |a.text| <= s.tokenIdxs[j + 1]
    requires |a.text| > 0
    ensures TagFor(a, s) == Tag(a.text, j, j + 1)
  {
    var n := |s.words|;
    if j < n - 1 {
      StartTokenUnique(s, a.start, j);
    } else {
      forall k | 0 <= k < n - 1
        ensures !InToken(s.tokenIdxs, k, a.start)
      {
        assert s.tokenIdxs[k + 1] <= s.tokenIdxs[j];
      }
      StartTokenFallback(s, a.start);
    }
  }

  /** With strictly increasing offsets the key of a sentence is the offset
      of its first token. */
  lemma FirstOffsetOfIncreasing(s: Sentence)
    requires WellFormed(s) && StrictlyIncreasing(s.tokenIdxs)
    ensures FirstOffset(s) == s.tokenIdxs[0]
  {
    var m := FirstOffset(s);
    var p :| 0 <= p < |s.tokenIdxs| && s.tokenIdxs[p] == m;
    assert m <= s.tokenIdxs[0];
    assert p == 0;
  }

  /** A mention that starts exactly at the sentence's first offset and is
      shorter than the gap to the second token gets the span `(0, 1)`. */
  lemma SentenceStartSpan(a: Annotation, s: Sentence)
    requires WellFormed(s) && StrictlyIncreasing(s.tokenIdxs)
    requires a.start == FirstOffset(s)
    requires |s.words| > 1 ==> a.start + |a.text| <= s.tokenIdxs[1]
    requires |a.text| > 0
    ensures TagFor(a, s) == Tag(a.text, 0, 1)
  {
    FirstOffsetOfIncreasing(s);
    SingleTokenSpan(a, s, 0);
  }

  /** The span end uses the mention's text length: the recorded end offset
      plays no part in the tag. */
  lemma TagIgnoresEnd(a: Annotation, s: Sentence, e: int)
    requires WellFormed(s)
    ensures TagFor(a.(end := e), s) == TagFor(a, s)
  {
  }

  /** When the mention does not even pass the offset of its start token
      (for example an empty mention text), the end is not moved and stays at
      the sentence length. */
  lemma EndFallback(a: Annotation, s: Sentence)
    requires WellFormed(s)
    requires a.start + |a.text| <= s.tokenIdxs[StartToken(s, a.start)]
    ensures TagFor(a, s).sEnd == |s.words|
  {
  }

  // ---------------------------------------------------------------------
  // Tokenizer output in document order

  /** The first offsets of the sentences, in the tokenizer's order. */
  function FirstOffsetSeq(ss: seq<Sentence>): (r: seq<int>)
    requires AllWellFormed(ss)
    ensures |r| == |ss|
    ensures forall i :: 0 <= i < |ss| ==> r[i] == FirstOffset(ss[i])
  {
    seq(|ss|, i requires 0 <= i < |ss| => FirstOffset(ss[i]))
  }

  lemma {:induction false} InsertLargest(xs: seq<int>, k: int)
    requires StrictlyIncreasing(xs)
    requires forall i :: 0 <= i < |xs| ==> xs[i] < k
    ensures Insert(xs, k) == xs + [k]
    decreases |xs|
  {
    if |xs| > 0 {
      InsertLargest(xs[1..], k);
      assert [xs[0]] + (xs[1..] + [k]) == xs + [k];
    }
  }

  lemma {:induction false} SortedOffsetsInOrder(ss: seq<Sentence>)
    requires AllWellFormed(ss)
    requires StrictlyIncreasing(FirstOffsetSeq(ss))
    ensures SortedOffsets(ss) == FirstOffsetSeq(ss)
    decreases |ss|
  {
    if |ss| > 0 {
      var init := ss[..|ss| - 1];
      var f := FirstOffsetSeq(ss);
      assert FirstOffsetSeq(init) == f[..|ss| - 1];
      SortedOffsetsInOrder(init);
      InsertLargest(FirstOffsetSeq(init), FirstOffset(ss[|ss| - 1]));
      assert f[..|ss| - 1] + [f[|ss| - 1]] == f;
    }
  }

  /** When the tokenizer returns the sentences in ascending order of their
      first offsets, as it does for a document read left to right, tag
      list `i` belongs to sentence `i`. */
  lemma LabelInDocumentOrder(anns: seq<Annotation>, ss: seq<Sentence>, i: nat)
    requires AllWellFormed(ss)
    requires StrictlyIncreasing(FirstOffsetSeq(ss))
    requires i < |ss|
    ensures Label(anns, ss)[i] == Matching(anns, ss[i])
  {
    SortedOffsetsInOrder(ss);
    var f := FirstOffsetSeq(ss);
    var x := f[i];
    assert x in FirstOffsets(ss);
    assert LastPos(ss, x) == i;
    assert SortedSentence(ss, i) == ss[i];
  }
}

=== FILE: alignment_scenarios.dfy ===
/**
 Worked examples of the alignment on a two-sentence document,
 "BRCA1 mutation increases cancer risk . Second sentence here .",
 and on two sentences that touch without a gap.
 */
module AlignmentScenarios {
  import opened NcbiTypes
  import opened Alignment
  import opened AlignmentFacts

  /** The tokenizer's sentences for
      "BRCA1 mutation increases cancer risk . Second sentence here .". */
  predicate IsBrca1Document(ss: seq<Sentence>) {
    && |ss| == 2
    && ss[0].words == ["BRCA1", "mutation", "increases", "cancer", "risk", "."]
    && ss[0].tokenIdxs == [0, 6, 15, 25, 32, 37]
    && ss[1].words == ["Second", "sentence", "here", "."]
    && ss[1].tokenIdxs == [39, 46, 55, 60]
  }

  function Brca1(): Annotation {
    Annotation(Title, 0, 5, "BRCA1", "Modifier")
  }

  /** What the scenarios need to know about the BRCA1 sentences. */
  predicate Brca1Shape(ss: seq<Sentence>) {
    && |ss| == 2 && AllWellFormed(ss)
    && StrictlyIncreasing(ss[0].tokenIdxs) && |ss[0].words| > 1 && ss[0].tokenIdxs[1] == 6
    && FirstOffset(ss[0]) == 0 && EndOffset(ss[0]) == 38
    && FirstOffset(ss[1]) == 39 && EndOffset(ss[1]) == 61
  }

  lemma Brca1FirstSentence(s: Sentence)
    requires |s.words| == 6 && s.tokenIdxs == [0, 6, 15, 25, 32, 37]
    ensures WellFormed(s) && StrictlyIncreasing(s.tokenIdxs)
    ensures FirstOffset(s) == 0 && EndOffset(s) == 38
  {
    assert StrictlyIncreasing(s.tokenIdxs);
    FirstOffsetOfIncreasing(s);
  }

  lemma Brca1SecondSentence(s: Sentence)
    requires |s.words| == 4 && s.tokenIdxs == [39, 46, 55, 60]
    ensures WellFormed(s) && FirstOffset(s) == 39 && EndOffset(s) == 61
  {
    assert StrictlyIncreasing(s.tokenIdxs);
    FirstOffsetOfIncreasing(s);
  }

  lemma Brca1HasShape(ss: seq<Sentence>)
    requires IsBrca1Document(ss)
    ensures Brca1Shape(ss)
  {
    Brca1FirstSentence(ss[0]);
    Brca1SecondSentence(ss[1]);
  }

  lemma PairOf<T>(l: seq<T>, x: T, y: T)
    requires |l| == 2 && l[0] == x && l[1] == y
    ensures l == [x, y]
  {
  }

  lemma TwoIncreasing(ss: seq<Sentence>)
    requires AllWellFormed(ss) && |ss| == 2 && FirstOffset(ss[0]) < FirstOffset(ss[1])
    ensures StrictlyIncreasing(FirstOffsetSeq(ss))
  {
    var f := FirstOffsetSeq(ss);
    assert |f| == 2 && f[0] < f[1];
  }

  /** Two sentences in document order: tag list `i` is the reference list
      of sentence `i`. */
  lemma TwoInOrder(anns: seq<Annotation>, ss: seq<Sentence>)
    requires AllWellFormed(ss) && |ss| == 2 && FirstOffset(ss[0]) < FirstOffset(ss[1])
    ensures Label(anns, ss) == [Matching(anns, ss[0]), Matching(anns, ss[1])]
  {
    TwoIncreasing(ss);
    LabelInDocumentOrder(anns, ss, 0);
    LabelInDocumentOrder(anns, ss, 1);
    PairOf(Label(anns, ss), Matching(anns, ss[0]), Matching(anns, ss[1]));
  }

  /** The BRCA1 mention matches the first token of sentence 0 and lies
      outside sentence 1. */
  lemma ShapeTags(ss: seq<Sentence>)
    requires Brca1Shape(ss)
    ensures Matching([Brca1()], ss[0]) == [Tag("BRCA1", 0, 1)]
    ensures Matching([Brca1()], ss[1]) == []
  {
    var a := Brca1();
    SentenceStartSpan(a, ss[0]);
    assert Matching([a], ss[0]) == [TagFor(a, ss[0])] + Matching([], ss[0]);
    MatchingNone([a], ss[1]);
  }

  /** "BRCA1" at offsets 0-5 becomes the tag ("BRCA1", (0, 1)) of sentence 0,
      and sentence 1 gets nothing. */
  lemma Brca1Scenario(ss: seq<Sentence>)
    requires IsBrca1Document(ss)
    ensures AllWellFormed(ss) && Label([Brca1()], ss) == [[Tag("BRCA1", 0, 1)], []]
  {
    Brca1HasShape(ss);
    TwoInOrder([Brca1()], ss);
    ShapeTags(ss);
  }

  /** A mention that starts after both sentences end is in neither. */
  lemma ShapeUncovered(ss: seq<Sentence>, a: Annotation)
    requires Brca1Shape(ss) && a.start > 61
    ensures Label([a], ss) == [[], []]
  {
    TwoInOrder([a], ss);
    MatchingNone([a], ss[0]);
    MatchingNone([a], ss[1]);
  }

  /** A mention starting beyond the last sentence produces no tag anywhere. */
  lemma BeyondLastSentence(ss: seq<Sentence>)
    requires IsBrca1Document(ss)
    ensures AllWellFormed(ss) && Label([Annotation(Abstract, 100, 104, "risk", "Modifier")], ss) == [[], []]
  {
    Brca1HasShape(ss);
    ShapeUncovered(ss, Annotation(Abstract, 100, 104, "risk", "Modifier"));
  }

  /** Two sentences handed over against document order: the sorted offsets
      put the second sentence first. */
  lemma TwoReversed(anns: seq<Annotation>, ss: seq<Sentence>)
    requires AllWellFormed(ss) && |ss| == 2 && FirstOffset(ss[1]) < FirstOffset(ss[0])
    ensures Label(anns, ss) == [Matching(anns, ss[1]), Matching(anns, ss[0])]
  {
    var f0 := FirstOffset(ss[0]);
    var f1 := FirstOffset(ss[1]);
    assert SortedOffsets(ss[..1]) == [f0];
    assert SortedOffsets(ss) == [f1, f0];
    assert LastPos(ss, f1) == 1;
    assert LastPos(ss, f0) == 0;
    assert SortedSentence(ss, 0) == ss[1];
    assert SortedSentence(ss, 1) == ss[0];
    PairOf(Label(anns, ss), Matching(anns, ss[1]), Matching(anns, ss[0]));
  }

  /** The BRCA1 sentences in the other order: the tags follow the sorted
      first offsets, so the BRCA1 tag still comes first. */
  lemma ShapeReversed(ss: seq<Sentence>, rev: seq<Sentence>)
    requires Brca1Shape(ss) && rev == [ss[1], ss[0]]
    ensures AllWellFormed(rev) && Label([Brca1()], rev) == [[Tag("BRCA1", 0, 1)], []]
  {
    TwoReversed([Brca1()], rev);
    ShapeTags(ss);
  }

  /** When the tokenizer hands back the sentences in the other order the tags
      follow the sorted first offsets: the BRCA1 tag lands at position 0,
      next to the sentence that does not contain it. */
  lemma Brca1ReversedSentences(ss: seq<Sentence>, rev: seq<Sentence>)
    requires IsBrca1Document(ss) && rev == [ss[1], ss[0]]
    ensures AllWellFormed(rev) && Label([Brca1()], rev) == [[Tag("BRCA1", 0, 1)], []]
  {
    Brca1HasShape(ss);
    ShapeReversed(ss, rev);
  }

  lemma TouchingFacts(ss: seq<Sentence>, a: Annotation)
    requires ss == [Sentence(["a", "b"], [0, 2]), Sentence(["c", "d"], [3, 5])]
    requires a == Annotation(Abstract, 3, 4, "c", "Modifier")
    ensures AllWellFormed(ss) && FirstOffset(ss[0]) == 0 && FirstOffset(ss[1]) == 3
    ensures Matching([a], ss[0]) == [Tag("c", 1, 2)]
    ensures Matching([a], ss[1]) == [Tag("c", 0, 1)]
  {
    var s0 := ss[0];
    var s1 := ss[1];
    assert StrictlyIncreasing(s0.tokenIdxs) && StrictlyIncreasing(s1.tokenIdxs);
    FirstOffsetOfIncreasing(s0);
    FirstOffsetOfIncreasing(s1);
    SingleTokenSpan(a, s0, 1);
    SingleTokenSpan(a, s1, 0);
    assert Matching([a], s0) == [TagFor(a, s0)] + Matching([], s0);
    assert Matching([a], s1) == [TagFor(a, s1)] + Matching([], s1);
  }

  /** Two sentences that touch: "a b" with offsets 0 and 2 ends at 3, where
      "c d" begins. A mention starting at 3 lies in both closed ranges, and
      both sentences get a tag, since the sentence loop does not stop at the
      first match. */
  lemma TouchingSentencesBothTagged(ss: seq<Sentence>)
    requires ss == [Sentence(["a", "b"], [0, 2]), Sentence(["c", "d"], [3, 5])]
    ensures AllWellFormed(ss) && Label([Annotation(Abstract, 3, 4, "c", "Modifier")], ss)
        == [[Tag("c", 1, 2)], [Tag("c", 0, 1)]]
  {
    var a := Annotation(Abstract, 3, 4, "c", "Modifier");
    TouchingFacts(ss, a);
    TwoInOrder([a], ss);
  }
}

=== FILE: loader.dfy ===
/**
 The corpus loader (`_load_files`) as a pure function from the files'
 lines to the three tables of the corpus: the partition of every PMID, the
 title and body of every document, and the mention annotations of every
 PMID. Every exception and the `sys.exit` of the integrity check become a
 `Failure` that aborts the whole load.
 */
module Loader {
  import opened NcbiTypes
  import opened PyText

  type Row = seq<string>
  type Group = seq<Row>

  /** The tables a load fills in. */
  datatype Tables = Tables(
    cv: map<Partition, set<string>>,
    documents: map<string, Document>,
    annotations: map<string, seq<Annotation>>)

  /** The tables before any file is read: three empty partitions, no
      documents and no annotations. */
  function EmptyTables(): (t: Tables)
    ensures CvComplete(t) && PartitionsCoverDocuments(t)
    ensures forall p: Partition :: t.cv[p] == {}
    ensures t.documents == map[] && t.annotations == map[]
  {
    var cv := map[Training := {}, Development := {}, Testing := {}];
    ThreePartitions(cv);
    Tables(cv, map[], map[])
  }

  /** A table with an entry for each of the three names has an entry for
      every partition. */
  lemma ThreePartitions(cv: map<Partition, set<string>>)
    requires Training in cv && Development in cv && Testing in cv
    ensures forall p: Partition :: p in cv
  {
    forall p: Partition ensures p in cv {
      match p
      case Training =>
      case Development =>
      case Testing =>
    }
  }

  /** Every partition has its entry in the partition table. */
  predicate CvComplete(t: Tables) {
    forall p: Partition :: p in t.cv
  }

  /** The PMIDs registered in some partition. */
  function Members(cv: map<Partition, set<string>>): set<string>
    requires forall p: Partition :: p in cv
  {
    cv[Training] + cv[Development] + cv[Testing]
  }

  /** Registering a PMID in one partition adds it to the members and
      nothing else. */
  lemma MembersAdd(cv: map<Partition, set<string>>, part: Partition, pmid: string)
    requires forall p: Partition :: p in cv
    ensures Members(cv[part := cv[part] + {pmid}]) == Members(cv) + {pmid}
  {
    match part
    case Training =>
    case Development =>
    case Testing =>
  }

  /** The loaded documents are exactly the PMIDs registered in some
      partition. */
  predicate PartitionsCoverDocuments(t: Tables)
    requires CvComplete(t)
  {
    t.documents.Keys == Members(t.cv)
  }

  // ---------------------------------------------------------------------
  // File names

  /** The last component of a `/`-separated path: the suffix after its
      last `/`, or the whole path when it has none. */
  function BaseName(path: string): (name: string)
    ensures '/' !in name
    ensures |name| <= |path| && path == path[..|path| - |name|] + name
    ensures |name| < |path| ==> path[|path| - |name| - 1] == '/'
  {
    var parts := Split(path, '/');
    var name := parts[|parts| - 1];
    if |parts| > 1 then
      JoinLast(parts, '/');
      assert path == Join(parts[..|parts| - 1], '/') + ['/'] + name;
      name
    else
      name
  }

  /** The fixed file-name-to-partition table; `None` for any other name. */
  function PartitionOf(name: string): Option<Partition> {
    if name == "NCBIdevelopset_corpus.txt" then Some(Development)
    else if name == "NCBItestset_corpus.txt" then Some(Testing)
    else if name == "NCBItrainset_corpus.txt" then Some(Training)
    else None
  }

  // ---------------------------------------------------------------------
  // Lines to groups of rows

  /** A title or abstract line: split on `|`, its second field is "t" or "a". */
  predicate IsMarkerRow(row: string) {
    var p := Split(row, '|');
    |p| > 1 && (p[1] == "t" || p[1] == "a")
  }

  /** The fields of a stripped line: `|`-separated for a title or abstract
      line, tab-separated otherwise. */
  function SplitRow(row: string): (fields: Row)
    ensures |fields| >= 1
    ensures IsMarkerRow(row) ==> Join(fields, '|') == row && |fields| > 1 && (fields[1] == "t" || fields[1] == "a")
    ensures IsMarkerRow(row) ==> forall k :: 0 <= k < |fields| ==> '|' !in fields[k]
    ensures !IsMarkerRow(row) ==> Join(fields, '\t') == row && forall k :: 0 <= k < |fields| ==> '\t' !in fields[k]
  {
    if IsMarkerRow(row) then Split(row, '|') else Split(row, '\t')
  }

  /** One line as the loop sees it: `None` for a line that strips to
      nothing, otherwise the fields of the stripped line. */
  function LineRow(line: string): (r: Option<Row>)
    ensures r.None? <==> IsBlank(line)
  {
    StripBlank(line);
    var row := Strip(line);
    if row == [] then None else Some(SplitRow(row))
  }

  /** Every line of a file, classified. */
  function LineRows(lines: seq<string>): (items: seq<Option<Row>>)
    ensures |items| == |lines|
  {
    seq(|lines|, k requires 0 <= k < |lines| => LineRow(lines[k]))
  }

  /** The rows of the non-blank lines, in order. */
  function Rows(items: seq<Option<Row>>): seq<Row> {
    if |items| == 0 then []
    else (if items[0].None? then [] else [items[0].value]) + Rows(items[1..])
  }

  /** The groups laid end to end. */
  function Flatten(groups: seq<Group>): seq<Row> {
    if |groups| == 0 then [] else groups[0] + Flatten(groups[1..])
  }

  /** The line loop with `doc` the group being built: a blank line closes a
      non-empty group, any other line adds its row, and the group in hand
      is closed at the end, empty or not. */
  function GroupFrom(items: seq<Option<Row>>, doc: Group): (groups: seq<Group>)
    ensures |groups| >= 1
    ensures Flatten(groups) == doc + Rows(items)
    ensures forall k :: 0 <= k < |groups| - 1 ==> groups[k] != []
  {
    if |items| == 0 then
      assert Flatten([doc]) == doc + Flatten([]);
      [doc]
    else if items[0].None? && doc != [] then
      var rest := GroupFrom(items[1..], []);
      assert ([doc] + rest)[1..] == rest;
      [doc] + rest
    else if items[0].Some? then
      var groups := GroupFrom(items[1..], doc + [items[0].value]);
      assert doc + [items[0].value] + Rows(items[1..]) == doc + Rows(items);
      groups
    else
      GroupFrom(items[1..], doc)
  }

  /** The documents of one file: the rows of its non-blank lines, cut at
      the blank lines. Only the last group can be empty. */
  function Groups(lines: seq<string>): (groups: seq<Group>)
    ensures |groups| >= 1
    ensures Flatten(groups) == Rows(LineRows(lines))
    ensures forall k :: 0 <= k < |groups| - 1 ==> groups[k] != []
  {
    assert [] + Rows(LineRows(lines)) == Rows(LineRows(lines));
    GroupFrom(LineRows(lines), [])
  }

  /** A run of lines without a blank one stays in a single group. */
  lemma {:induction false} NoBlankLineOneGroup(items: seq<Option<Row>>, doc: Group)
    requires forall k :: 0 <= k < |items| ==> items[k].Some?
    ensures GroupFrom(items, doc) == [doc + Rows(items)]
    decreases |items|
  {
    if |items| > 0 {
      var row := items[0].value;
      assert forall k :: 0 <= k < |items| - 1 ==> items[1..][k] == items[k + 1];
      assert GroupFrom(items, doc) == GroupFrom(items[1..], doc + [row]);
      NoBlankLineOneGroup(items[1..], doc + [row]);
      assert Rows(items) == [row] + Rows(items[1..]);
      assert doc + [row] + Rows(items[1..]) == doc + Rows(items);
    } else {
      assert doc + Rows(items) == doc;
    }
  }

  /** A blank line after a run of non-blank lines closes the group in
      hand: the lines before it form one document and the rest start
      afresh. */
  lemma {:induction false} BlankLineCuts(items1: seq<Option<Row>>, items2: seq<Option<Row>>, doc: Group)
    requires forall k :: 0 <= k < |items1| ==> items1[k].Some?
    requires doc + Rows(items1) != []
    ensures GroupFrom(items1 + [None] + items2, doc) == [doc + Rows(items1)] + GroupFrom(items2, [])
    decreases |items1|
  {
    var items := items1 + [None] + items2;
    if |items1| == 0 {
      assert items[1..] == items2;
      assert doc + Rows(items1) == doc;
    } else {
      var row := items1[0].value;
      var tail := items1[1..];
      assert items[1..] == tail + [None] + items2;
      assert forall k :: 0 <= k < |tail| ==> tail[k] == items1[k + 1];
      assert Rows(items1) == [row] + Rows(tail);
      assert doc + [row] + Rows(tail) == doc + Rows(items1);
      BlankLineCuts(tail, items2, doc + [row]);
    }
  }

  /** A blank line with no group in hand, such as a second blank line in a
      row or one at the top of the file, is skipped. */
  lemma BlankLineSkipped(items: seq<Option<Row>>)
    ensures GroupFrom([None] + items, []) == GroupFrom(items, [])
  {
    assert ([None] + items)[1..] == items;
  }

  /** The classified lines of a concatenation are the concatenation of the
      classified lines. */
  lemma LineRowsAppend(lines1: seq<string>, lines2: seq<string>)
    ensures LineRows(lines1 + lines2) == LineRows(lines1) + LineRows(lines2)
  {
  }

  /** A file whose first lines are non-blank and followed by a blank line:
      those lines are its first document, and the rest of the file is
      grouped on its own. */
  lemma FirstDocumentAtBlankLine(lines1: seq<string>, blank: string, lines2: seq<string>)
    requires |lines1| > 0 && forall k :: 0 <= k < |lines1| ==> !IsBlank(lines1[k])
    requires IsBlank(blank)
    ensures Groups(lines1 + [blank] + lines2) == [Rows(LineRows(lines1))] + Groups(lines2)
  {
    var items1 := LineRows(lines1);
    LineRowsAppend(lines1 + [blank], lines2);
    LineRowsAppend(lines1, [blank]);
    assert LineRows([blank]) == [None];
    assert items1[0] == LineRow(lines1[0]);
    assert Rows(items1) != [] by {
      assert Rows(items1) == [items1[0].value] + Rows(items1[1..]);
    }
    assert [] + Rows(items1) == Rows(items1);
    BlankLineCuts(items1, LineRows(lines2), []);
  }

  // ---------------------------------------------------------------------
  // Mention rows

  /** The loader accepts a mention row: six fields, integer offsets, and
      text equal to the document string sliced at those offsets. */
  predicate MentionAccepted(row: Row, docStr: string) {
    && |row| == 6
    && ParseInt(row[1]).Some?
    && ParseInt(row[2]).Some?
    && row[3] == Slice(docStr, ParseInt(row[1]).value, ParseInt(row[2]).value)
  }

  /** One mention row `pmid, start, end, text, mention_type, concept_id`, of a
      document with the given title and document string. The row's own PMID
      field names the annotation list it goes to. */
  function ParseMention(row: Row, title: string, docStr: string): Result<(string, Annotation)>
  {
    if |row| != 6 then Failure(MalformedMentionRow(row))
    else
      match (ParseInt(row[1]), ParseInt(row[2]))
      case (None, _) => Failure(BadOffset(row[1]))
      case (_, None) => Failure(BadOffset(row[2]))
      case (Some(start), Some(end)) =>
        var textType := if end <= |title| then Title else Abstract;
        var found := Slice(docStr, start, end);
        if row[3] != found then Failure(IntegrityViolation(row[0], row[3], found))
        else Success((row[0], Annotation(textType, start, end, row[3], row[4])))
  }

  /** A row is parsed exactly when the loader accepts it. The annotation
      then carries the row's text, type and integer offsets, its text is
      the document string sliced at those offsets, and it is a title
      mention exactly when it ends inside the title. A row with six fields
      and integer offsets whose text does not match stops the load with
      the integrity error, naming the row's PMID, its text and the slice. */
  lemma ParseMentionSpec(row: Row, title: string, docStr: string)
    ensures ParseMention(row, title, docStr).Success? <==> MentionAccepted(row, docStr)
    ensures ParseMention(row, title, docStr).Success? ==>
      var (pmid, a) := ParseMention(row, title, docStr).value;
      && pmid == row[0] && a.text == row[3] && a.mentionType == row[4]
      && Some(a.start) == ParseInt(row[1]) && Some(a.end) == ParseInt(row[2])
      && a.text == Slice(docStr, a.start, a.end)
      && (a.textType == Title <==> a.end <= |title|)
    ensures |row| != 6 ==> ParseMention(row, title, docStr) == Failure(MalformedMentionRow(row))
    ensures |row| == 6 && ParseInt(row[1]).None? ==> ParseMention(row, title, docStr) == Failure(BadOffset(row[1]))
    ensures |row| == 6 && ParseInt(row[1]).Some? && ParseInt(row[2]).None? ==>
      ParseMention(row, title, docStr) == Failure(BadOffset(row[2]))
    ensures |row| == 6 && ParseInt(row[1]).Some? && ParseInt(row[2]).Some? && !MentionAccepted(row, docStr) ==>
      ParseMention(row, title, docStr)
        == Failure(IntegrityViolation(row[0], row[3], Slice(docStr, ParseInt(row[1]).value, ParseInt(row[2]).value)))
  {
  }

  /** The mention rows of one document, in order; the first rejected row
      aborts with its error. */
  function ParseMentions(rows: seq<Row>, title: string, docStr: string): (r: Result<seq<(string, Annotation)>>)
    ensures r.Success? <==> forall k :: 0 <= k < |rows| ==> ParseMention(rows[k], title, docStr).Success?
    ensures r.Success? ==>
      && |r.value| == |rows|
      && forall k :: 0 <= k < |rows| ==> ParseMention(rows[k], title, docStr) == Success(r.value[k])
    ensures r.Failure? ==> exists k ::
      && 0 <= k < |rows| && ParseMention(rows[k], title, docStr) == Failure(r.error)
      && forall j :: 0 <= j < k ==> ParseMention(rows[j], title, docStr).Success?
  {
    var rs := seq(|rows|, k requires 0 <= k < |rows| => ParseMention(rows[k], title, docStr));
    assert forall k :: 0 <= k < |rows| ==> rs[k] == ParseMention(rows[k], title, docStr);
    Collect(rs)
  }

  /** The document's mention rows parse exactly when the loader accepts
      every one of them. */
  lemma ParseMentionsAccepted(rows: seq<Row>, title: string, docStr: string)
    ensures ParseMentions(rows, title, docStr).Success? <==> forall k :: 0 <= k < |rows| ==> MentionAccepted(rows[k], docStr)
  {
    forall k | 0 <= k < |rows| {
      ParseMentionSpec(rows[k], title, docStr);
    }
  }

  // ---------------------------------------------------------------------
  // Annotation table

  /** The annotation list of `pmid`; a missing entry reads as empty. */
  function AnnotationsOf(anns: map<string, seq<Annotation>>, pmid: string): seq<Annotation> {
    if pmid in anns then anns[pmid] else []
  }

  /** The annotations of the pairs that belong to `pmid`, in order. */
  function Owned(pairs: seq<(string, Annotation)>, pmid: string): seq<Annotation> {
    if |pairs| == 0 then []
    else (if pairs[0].0 == pmid then [pairs[0].1] else []) + Owned(pairs[1..], pmid)
  }

  /** The PMIDs the pairs name. */
  function Pmids(pairs: seq<(string, Annotation)>): set<string> {
    if |pairs| == 0 then {} else {pairs[0].0} + Pmids(pairs[1..])
  }

  /** Append each annotation to its PMID's list, creating the list on first
      use, in the order of the pairs. */
  function Register(anns: map<string, seq<Annotation>>, pairs: seq<(string, Annotation)>): (r: map<string, seq<Annotation>>)
    ensures r.Keys == anns.Keys + Pmids(pairs)
    decreases |pairs|
  {
    if |pairs| == 0 then anns
    else
      var (pmid, a) := pairs[0];
      Register(anns[pmid := AnnotationsOf(anns, pmid) + [a]], pairs[1..])
  }

  /** Registering appends to the list of `p` exactly the annotations of
      the pairs that name `p`, in order, after the ones it had; `p` has a
      list afterwards exactly when it had one or some pair names it. */
  lemma {:induction false} RegisterAppends(anns: map<string, seq<Annotation>>, pairs: seq<(string, Annotation)>, p: string)
    ensures AnnotationsOf(Register(anns, pairs), p) == AnnotationsOf(anns, p) + Owned(pairs, p)
    ensures p in Register(anns, pairs) <==> p in anns || Owned(pairs, p) != []
    decreases |pairs|
  {
    PmidsOwned(pairs, p);
    if |pairs| > 0 {
      var (pmid, a) := pairs[0];
      var anns' := anns[pmid := AnnotationsOf(anns, pmid) + [a]];
      RegisterAppends(anns', pairs[1..], p);
      if p == pmid {
        assert AnnotationsOf(anns', p) == AnnotationsOf(anns, p) + [a];
      } else {
        assert AnnotationsOf(anns', p) == AnnotationsOf(anns, p);
      }
    }
  }

  /** The pairs name `p` exactly when some annotation is filed under it. */
  lemma {:induction false} PmidsOwned(pairs: seq<(string, Annotation)>, p: string)
    ensures p in Pmids(pairs) <==> Owned(pairs, p) != []
    decreases |pairs|
  {
    if |pairs| > 0 {
      PmidsOwned(pairs[1..], p);
    }
  }

  // ---------------------------------------------------------------------
  // Documents and files

  /** The header fields `doc[0][0]`, `doc[0][2]` and `doc[1][2]` exist. */
  predicate HeaderPresent(doc: Group) {
    |doc| >= 2 && |doc[0]| >= 3 && |doc[1]| >= 3
  }

  /** The loader accepts a whole document. */
  predicate DocumentAccepted(doc: Group) {
    && HeaderPresent(doc)
    && forall k :: 2 <= k < |doc| ==> MentionAccepted(doc[k], DocString(doc[0][2], doc[1][2]))
  }

  /** One document of a file of partition `part`: register the PMID in the
      partition, store the title and body, then check and store every
      mention row. */
  function ProcessDocument(doc: Group, part: Partition, t: Tables): (r: Result<Tables>)
    requires CvComplete(t)
    ensures r.Success? <==> DocumentAccepted(doc)
    ensures !HeaderPresent(doc) ==> r == Failure(MalformedDocument)
    ensures HeaderPresent(doc) && ParseMentions(doc[2..], doc[0][2], DocString(doc[0][2], doc[1][2])).Failure? ==>
      r == Failure(ParseMentions(doc[2..], doc[0][2], DocString(doc[0][2], doc[1][2])).error)
    ensures r.Success? ==>
      var pmid := doc[0][0];
      var docStr := DocString(doc[0][2], doc[1][2]);
      var pairs := ParseMentions(doc[2..], doc[0][2], docStr).value;
      && CvComplete(r.value)
      && r.value.cv == t.cv[part := t.cv[part] + {pmid}]
      && r.value.documents == t.documents[pmid := Raw(doc[0][2], doc[1][2])]
      && r.value.annotations == Register(t.annotations, pairs)
  {
    if !HeaderPresent(doc) then Failure(MalformedDocument)
    else
      var pmid, title, body := doc[0][0], doc[0][2], doc[1][2];
      var docStr := DocString(title, body);
      assert forall k :: 2 <= k < |doc| ==> doc[k] == doc[2..][k - 2];
      ParseMentionsAccepted(doc[2..], title, docStr);
      var pairs :- ParseMentions(doc[2..], title, docStr);
      Success(Tables(
        t.cv[part := t.cv[part] + {pmid}],
        t.documents[pmid := Raw(title, body)],
        Register(t.annotations, pairs)))
  }

  /** The documents of one file, in order; the first rejected one aborts. */
  function ProcessDocuments(docs: seq<Group>, part: Partition, t: Tables): (r: Result<Tables>)
    requires CvComplete(t)
    ensures r.Success? <==> AllDocumentsAccepted(docs)
    ensures r.Success? ==> CvComplete(r.value)
    ensures r.Success? && PartitionsCoverDocuments(t) ==> PartitionsCoverDocuments(r.value)
  {
    if |docs| == 0 then Success(t)
    else
      var t' :- ProcessDocument(docs[0], part, t);
      MembersAdd(t.cv, part, docs[0][0][0]);
      ProcessDocuments(docs[1..], part, t')
  }

  /** Every document of the sequence is accepted. */
  predicate AllDocumentsAccepted(docs: seq<Group>) {
    |docs| == 0 || (DocumentAccepted(docs[0]) && AllDocumentsAccepted(docs[1..]))
  }

  lemma {:induction false} AllDocumentsAcceptedEach(docs: seq<Group>)
    ensures AllDocumentsAccepted(docs) <==> forall k :: 0 <= k < |docs| ==> DocumentAccepted(docs[k])
  {
    if |docs| > 0 {
      AllDocumentsAcceptedEach(docs[1..]);
      assert forall k :: 1 <= k < |docs| ==> docs[k] == docs[1..][k - 1];
    }
  }

  /** The loader accepts a whole file: a known name, and every document in
      it accepted. */
  predicate FileAccepted(path: string, lines: seq<string>) {
    var groups := Groups(lines);
    && PartitionOf(BaseName(path)).Some?
    && forall k :: 0 <= k < |groups| ==> DocumentAccepted(groups[k])
  }

  /** One file: its base name must be one of the three corpus files. */
  function LoadFile(path: string, lines: seq<string>, t: Tables): (r: Result<Tables>)
    requires CvComplete(t)
    ensures PartitionOf(BaseName(path)).None? ==> r == Failure(UnknownFile(BaseName(path)))
    ensures r.Success? <==> FileAccepted(path, lines)
    ensures r.Success? ==> CvComplete(r.value)
    ensures r.Success? && PartitionsCoverDocuments(t) ==> PartitionsCoverDocuments(r.value)
  {
    match PartitionOf(BaseName(path))
    case None => Failure(UnknownFile(BaseName(path)))
    case Some(part) =>
      AllDocumentsAcceptedEach(Groups(lines));
      ProcessDocuments(Groups(lines), part, t)
  }

  /** All files, in the order the directory listing gives them. */
  function LoadFilesFrom(files: seq<(string, seq<string>)>, t: Tables): (r: Result<Tables>)
    requires CvComplete(t)
    ensures r.Success? <==> AllFilesAccepted(files)
    ensures r.Success? ==> CvComplete(r.value)
    ensures r.Success? && PartitionsCoverDocuments(t) ==> PartitionsCoverDocuments(r.value)
  {
    if |files| == 0 then Success(t)
    else
      var t' :- LoadFile(files[0].0, files[0].1, t);
      LoadFilesFrom(files[1..], t')
  }

  /** Every file of the listing is accepted. */
  predicate AllFilesAccepted(files: seq<(string, seq<string>)>) {
    |files| == 0 || (FileAccepted(files[0].0, files[0].1) && AllFilesAccepted(files[1..]))
  }

  /** The load succeeds exactly when every file is accepted on its own:
      whether a file is accepted does not depend on the files before it. */
  lemma {:induction false} AllFilesAcceptedEach(files: seq<(string, seq<string>)>)
    ensures AllFilesAccepted(files) <==> forall k :: 0 <= k < |files| ==> FileAccepted(files[k].0, files[k].1)
  {
    if |files| > 0 {
      AllFilesAcceptedEach(files[1..]);
      assert forall k :: 1 <= k < |files| ==> files[k] == files[1..][k - 1];
    }
  }

  /** `_load_files`: the whole corpus, from empty tables. It succeeds
      exactly when every file is accepted, and then every loaded document
      belongs to a partition and every partition member is a loaded
      document. */
  function LoadFiles(files: seq<(string, seq<string>)>): (r: Result<Tables>)
    ensures r.Success? <==> AllFilesAccepted(files)
    ensures r.Success? ==> CvComplete(r.value) && PartitionsCoverDocuments(r.value)
  {
    LoadFilesFrom(files, EmptyTables())
  }

  // ---------------------------------------------------------------------
  // What a load stores

  /** The header fields of a document. */
  function PmidOf(doc: Group): string
    requires HeaderPresent(doc)
  {
    doc[0][0]
  }

  function TitleOf(doc: Group): string
    requires HeaderPresent(doc)
  {
    doc[0][2]
  }

  function BodyOf(doc: Group): string
    requires HeaderPresent(doc)
  {
    doc[1][2]
  }

  predicate AllHeadersPresent(docs: seq<Group>) {
    forall k :: 0 <= k < |docs| ==> HeaderPresent(docs[k])
  }

  /** The PMIDs in the headers of the documents. */
  function HeaderPmids(docs: seq<Group>): set<string> {
    set k | 0 <= k < |docs| && HeaderPresent(docs[k]) :: PmidOf(docs[k])
  }

  /** The parsed mention rows of a document; empty when the document or a
      row is rejected. */
  function MentionPairs(doc: Group): seq<(string, Annotation)> {
    if !HeaderPresent(doc) then []
    else
      match ParseMentions(doc[2..], TitleOf(doc), DocString(TitleOf(doc), BodyOf(doc)))
      case Success(pairs) => pairs
      case Failure(_) => []
  }

  /** The mentions the documents file under `p`, document by document and
      row by row. */
  function DocsOwned(docs: seq<Group>, p: string): seq<Annotation> {
    if |docs| == 0 then [] else Owned(MentionPairs(docs[0]), p) + DocsOwned(docs[1..], p)
  }

  /** Document `k` is the last one whose header names `p`. */
  predicate IsLastHeader(docs: seq<Group>, k: int, p: string) {
    && 0 <= k < |docs| && HeaderPresent(docs[k]) && PmidOf(docs[k]) == p
    && forall j :: k < j < |docs| && HeaderPresent(docs[j]) ==> PmidOf(docs[j]) != p
  }

  lemma HeaderPmidsCons(docs: seq<Group>)
    requires |docs| > 0 && HeaderPresent(docs[0])
    ensures HeaderPmids(docs) == {PmidOf(docs[0])} + HeaderPmids(docs[1..])
  {
    var rest := docs[1..];
    assert forall k :: 0 <= k < |rest| ==> rest[k] == docs[k + 1];
    forall x | x in HeaderPmids(docs)
      ensures x in {PmidOf(docs[0])} + HeaderPmids(rest)
    {
      var k :| 0 <= k < |docs| && HeaderPresent(docs[k]) && PmidOf(docs[k]) == x;
      if k > 0 {
        assert HeaderPresent(rest[k - 1]) && PmidOf(rest[k - 1]) == x;
      }
    }
    forall x | x in HeaderPmids(rest)
      ensures x in HeaderPmids(docs)
    {
      var k :| 0 <= k < |rest| && HeaderPresent(rest[k]) && PmidOf(rest[k]) == x;
      assert HeaderPresent(docs[k + 1]) && PmidOf(docs[k + 1]) == x;
    }
  }

  /** A successful run over a file's documents read every header. */
  lemma ProcessedHeaders(docs: seq<Group>, part: Partition, t: Tables)
    requires CvComplete(t) && ProcessDocuments(docs, part, t).Success?
    ensures AllHeadersPresent(docs)
  {
    AllDocumentsAcceptedEach(docs);
  }

  /** A document's contribution: the PMID joins the partition, its raw
      record replaces any earlier one, and its mentions are appended. */
  lemma ProcessDocumentContents(doc: Group, part: Partition, t: Tables, p: string)
    requires CvComplete(t) && ProcessDocument(doc, part, t).Success?
    ensures HeaderPresent(doc)
    ensures var r := ProcessDocument(doc, part, t).value;
      && r.cv == t.cv[part := t.cv[part] + {PmidOf(doc)}]
      && r.documents == t.documents[PmidOf(doc) := Raw(TitleOf(doc), BodyOf(doc))]
      && AnnotationsOf(r.annotations, p) == AnnotationsOf(t.annotations, p) + Owned(MentionPairs(doc), p)
      && (p in r.annotations <==> p in t.annotations || Owned(MentionPairs(doc), p) != [])
  {
    RegisterAppends(t.annotations, MentionPairs(doc), p);
  }

  lemma UnionAssoc<T>(a: set<T>, b: set<T>, c: set<T>)
    ensures (a + b) + c == a + (b + c)
  {
  }

  lemma AppendAssoc<T>(a: seq<T>, b: seq<T>, c: seq<T>)
    ensures (a + b) + c == a + (b + c)
  {
  }

  lemma GainNothing(cv: map<Partition, set<string>>, part: Partition)
    requires part in cv
    ensures cv[part := cv[part] + {}] == cv
  {
    assert cv[part] + {} == cv[part];
  }

  lemma GainTwice(cv: map<Partition, set<string>>, part: Partition, a: set<string>, b: set<string>)
    requires part in cv
    ensures var cv' := cv[part := cv[part] + a]; cv'[part := cv'[part] + b] == cv[part := cv[part] + (a + b)]
  {
    assert cv[part] + a + b == cv[part] + (a + b);
  }

  /** The first step of a successful run over a file's documents, with
      the tables it leaves for the rest. */
  lemma ProcessDocumentsStep(docs: seq<Group>, part: Partition, t: Tables, p: string) returns (t': Tables)
    requires CvComplete(t) && |docs| > 0 && ProcessDocuments(docs, part, t).Success?
    ensures HeaderPresent(docs[0]) && CvComplete(t')
    ensures ProcessDocuments(docs, part, t) == ProcessDocuments(docs[1..], part, t')
    ensures t'.cv == t.cv[part := t.cv[part] + {PmidOf(docs[0])}]
    ensures t'.documents == t.documents[PmidOf(docs[0]) := Raw(TitleOf(docs[0]), BodyOf(docs[0]))]
    ensures AnnotationsOf(t'.annotations, p) == AnnotationsOf(t.annotations, p) + Owned(MentionPairs(docs[0]), p)
    ensures p in t'.annotations <==> p in t.annotations || Owned(MentionPairs(docs[0]), p) != []
  {
    t' := ProcessDocument(docs[0], part, t).value;
    ProcessDocumentContents(docs[0], part, t, p);
  }

  /** The partition table after a file's documents. */
  lemma {:induction false} ProcessedPartitions(docs: seq<Group>, part: Partition, t: Tables)
    requires CvComplete(t) && ProcessDocuments(docs, part, t).Success?
    ensures ProcessDocuments(docs, part, t).value.cv == t.cv[part := t.cv[part] + HeaderPmids(docs)]
    decreases |docs|
  {
    if |docs| == 0 {
      assert HeaderPmids(docs) == {};
      GainNothing(t.cv, part);
    } else {
      var t' := ProcessDocumentsStep(docs, part, t, "");
      ProcessedPartitions(docs[1..], part, t');
      HeaderPmidsCons(docs);
      GainTwice(t.cv, part, {PmidOf(docs[0])}, HeaderPmids(docs[1..]));
    }
  }

  lemma LastHeaderLater(docs: seq<Group>, k: int, p: string)
    requires |docs| > 0 && IsLastHeader(docs[1..], k, p)
    ensures IsLastHeader(docs, k + 1, p)
  {
    assert forall j :: 0 < j < |docs| ==> docs[j] == docs[1..][j - 1];
  }

  lemma LastHeaderFirst(docs: seq<Group>, p: string)
    requires |docs| > 0 && HeaderPresent(docs[0]) && PmidOf(docs[0]) == p && p !in HeaderPmids(docs[1..])
    ensures IsLastHeader(docs, 0, p)
  {
    forall j | 0 < j < |docs| && HeaderPresent(docs[j])
      ensures PmidOf(docs[j]) != p
    {
      assert docs[j] == docs[1..][j - 1];
    }
  }

  /** The PMIDs holding records after a file's documents. */
  lemma {:induction false} ProcessedKeys(docs: seq<Group>, part: Partition, t: Tables)
    requires CvComplete(t) && ProcessDocuments(docs, part, t).Success?
    ensures ProcessDocuments(docs, part, t).value.documents.Keys == t.documents.Keys + HeaderPmids(docs)
    decreases |docs|
  {
    if |docs| == 0 {
      assert HeaderPmids(docs) == {};
    } else {
      var t' := ProcessDocumentsStep(docs, part, t, "");
      ProcessedKeys(docs[1..], part, t');
      HeaderPmidsCons(docs);
    }
  }

  /** The record of `p` after a file's documents. */
  lemma {:induction false} ProcessedRecord(docs: seq<Group>, part: Partition, t: Tables, p: string)
    requires CvComplete(t) && ProcessDocuments(docs, part, t).Success?
    ensures var r := ProcessDocuments(docs, part, t).value;
      && (p !in HeaderPmids(docs) && p in t.documents ==> p in r.documents && r.documents[p] == t.documents[p])
      && (p in HeaderPmids(docs) ==> p in r.documents && exists k :: IsLastHeader(docs, k, p) && r.documents[p] == Raw(TitleOf(docs[k]), BodyOf(docs[k])))
    decreases |docs|
  {
    if |docs| == 0 {
      assert HeaderPmids(docs) == {};
    } else {
      var r := ProcessDocuments(docs, part, t).value;
      var t' := ProcessDocumentsStep(docs, part, t, p);
      ProcessedRecord(docs[1..], part, t', p);
      HeaderPmidsCons(docs);
      if p in HeaderPmids(docs[1..]) {
        var k :| IsLastHeader(docs[1..], k, p) && r.documents[p] == Raw(TitleOf(docs[1..][k]), BodyOf(docs[1..][k]));
        LastHeaderLater(docs, k, p);
      } else if p == PmidOf(docs[0]) {
        LastHeaderFirst(docs, p);
      }
    }
  }

  /** The records after a file's documents. */
  lemma ProcessedRecords(docs: seq<Group>, part: Partition, t: Tables, p: string)
    requires CvComplete(t) && ProcessDocuments(docs, part, t).Success?
    ensures var r := ProcessDocuments(docs, part, t).value;
      && r.documents.Keys == t.documents.Keys + HeaderPmids(docs)
      && (p !in HeaderPmids(docs) && p in t.documents ==> r.documents[p] == t.documents[p])
      && (p in HeaderPmids(docs) ==> exists k :: IsLastHeader(docs, k, p) && r.documents[p] == Raw(TitleOf(docs[k]), BodyOf(docs[k])))
  {
    ProcessedKeys(docs, part, t);
    ProcessedRecord(docs, part, t, p);
  }

  /** The annotation list of `p` after a file's documents. */
  lemma {:induction false} ProcessedAnnotations(docs: seq<Group>, part: Partition, t: Tables, p: string)
    requires CvComplete(t) && ProcessDocuments(docs, part, t).Success?
    ensures AnnotationsOf(ProcessDocuments(docs, part, t).value.annotations, p)
      == AnnotationsOf(t.annotations, p) + DocsOwned(docs, p)
    ensures p in ProcessDocuments(docs, part, t).value.annotations <==> p in t.annotations || DocsOwned(docs, p) != []
    decreases |docs|
  {
    if |docs| > 0 {
      var t' := ProcessDocumentsStep(docs, part, t, p);
      var before, own, later := AnnotationsOf(t.annotations, p), Owned(MentionPairs(docs[0]), p), DocsOwned(docs[1..], p);
      ProcessedAnnotations(docs[1..], part, t', p);
      assert DocsOwned(docs, p) == own + later;
      AppendAssoc(before, own, later);
    }
  }

  /** What a file's documents store, on success: their header PMIDs join
      the partition and nothing else in the partition table changes; the
      records of those PMIDs are the raw title and body of the last
      document naming each; every other record stays; and every PMID's
      annotation list gains the documents' mentions filed under it, in
      order. */
  lemma ProcessDocumentsContents(docs: seq<Group>, part: Partition, t: Tables, p: string)
    requires CvComplete(t) && ProcessDocuments(docs, part, t).Success?
    ensures AllHeadersPresent(docs)
    ensures var r := ProcessDocuments(docs, part, t).value;
      && r.cv == t.cv[part := t.cv[part] + HeaderPmids(docs)]
      && r.documents.Keys == t.documents.Keys + HeaderPmids(docs)
      && (p !in HeaderPmids(docs) && p in t.documents ==> r.documents[p] == t.documents[p])
      && (p in HeaderPmids(docs) ==> exists k :: IsLastHeader(docs, k, p) && r.documents[p] == Raw(TitleOf(docs[k]), BodyOf(docs[k])))
      && AnnotationsOf(r.annotations, p) == AnnotationsOf(t.annotations, p) + DocsOwned(docs, p)
      && (p in r.annotations <==> p in t.annotations || DocsOwned(docs, p) != [])
  {
    ProcessedHeaders(docs, part, t);
    ProcessedPartitions(docs, part, t);
    ProcessedRecords(docs, part, t, p);
    ProcessedAnnotations(docs, part, t, p);
  }

  /** The documents of a file, as the loader reads them. */
  function FileDocs(file: (string, seq<string>)): seq<Group> {
    Groups(file.1)
  }

  /** The header PMIDs of the files whose name maps to partition `q`. */
  function FilesPmidsIn(files: seq<(string, seq<string>)>, q: Partition): set<string> {
    if |files| == 0 then {}
    else
      (if PartitionOf(BaseName(files[0].0)) == Some(q) then HeaderPmids(FileDocs(files[0])) else {})
        + FilesPmidsIn(files[1..], q)
  }

  /** The header PMIDs of all the files. */
  function FilesPmids(files: seq<(string, seq<string>)>): set<string> {
    if |files| == 0 then {}
    else
      HeaderPmids(FileDocs(files[0])) + FilesPmids(files[1..])
  }

  /** The mentions all the files file under `p`, in file order. */
  function FilesOwned(files: seq<(string, seq<string>)>, p: string): seq<Annotation> {
    if |files| == 0 then []
    else
      DocsOwned(FileDocs(files[0]), p) + FilesOwned(files[1..], p)
  }

  /** `d` is the raw record of some document of some file whose header
      names `p`. */
  predicate RecordFromFiles(files: seq<(string, seq<string>)>, p: string, d: Document) {
    exists f, k :: 0 <= f < |files| && 0 <= k < |FileDocs(files[f])| && RecordOf(FileDocs(files[f])[k], p, d)
  }

  predicate RecordOf(doc: Group, p: string, d: Document) {
    HeaderPresent(doc) && PmidOf(doc) == p && d == Raw(TitleOf(doc), BodyOf(doc))
  }

  /** The partition table after one accepted file: the partition its name
      maps to gains its header PMIDs, and no other partition changes. */
  lemma LoadFilePartitions(file: (string, seq<string>), t: Tables, q: Partition)
    requires CvComplete(t)
    ensures var r := LoadFile(file.0, file.1, t);
      r.Success? ==>
        && PartitionOf(BaseName(file.0)).Some?
        && (var part := PartitionOf(BaseName(file.0)).value;
            r.value.cv == t.cv[part := t.cv[part] + HeaderPmids(FileDocs(file))])
        && q in r.value.cv
        && r.value.cv[q] == t.cv[q] + (if PartitionOf(BaseName(file.0)) == Some(q) then HeaderPmids(FileDocs(file)) else {})
  {
    if LoadFile(file.0, file.1, t).Success? {
      ProcessedPartitions(FileDocs(file), PartitionOf(BaseName(file.0)).value, t);
    }
  }

  /** The records after one accepted file. */
  lemma LoadFileRecords(file: (string, seq<string>), t: Tables, p: string)
    requires CvComplete(t)
    ensures var r := LoadFile(file.0, file.1, t);
      var docs := FileDocs(file);
      r.Success? ==>
        && r.value.documents.Keys == t.documents.Keys + HeaderPmids(docs)
        && (p !in HeaderPmids(docs) && p in t.documents ==> r.value.documents[p] == t.documents[p])
        && (p in HeaderPmids(docs) ==> exists k :: IsLastHeader(docs, k, p) && r.value.documents[p] == Raw(TitleOf(docs[k]), BodyOf(docs[k])))
  {
    if LoadFile(file.0, file.1, t).Success? {
      ProcessedRecords(FileDocs(file), PartitionOf(BaseName(file.0)).value, t, p);
    }
  }

  /** The annotation list of `p` after one accepted file. */
  lemma LoadFileAnnotations(file: (string, seq<string>), t: Tables, p: string)
    requires CvComplete(t)
    ensures var r := LoadFile(file.0, file.1, t);
      r.Success? ==>
        && AnnotationsOf(r.value.annotations, p) == AnnotationsOf(t.annotations, p) + DocsOwned(FileDocs(file), p)
        && (p in r.value.annotations <==> p in t.annotations || DocsOwned(FileDocs(file), p) != [])
  {
    if LoadFile(file.0, file.1, t).Success? {
      ProcessedAnnotations(FileDocs(file), PartitionOf(BaseName(file.0)).value, t, p);
    }
  }

  /** One accepted file: its documents' contents, with the partition its
      name maps to. */
  lemma LoadFileContents(file: (string, seq<string>), t: Tables, p: string)
    requires CvComplete(t)
    ensures var r := LoadFile(file.0, file.1, t);
      var docs := FileDocs(file);
      r.Success? ==>
        && PartitionOf(BaseName(file.0)).Some? && AllHeadersPresent(docs)
        && (var part := PartitionOf(BaseName(file.0)).value;
            r.value.cv == t.cv[part := t.cv[part] + HeaderPmids(docs)])
        && r.value.documents.Keys == t.documents.Keys + HeaderPmids(docs)
        && (p !in HeaderPmids(docs) && p in t.documents ==> r.value.documents[p] == t.documents[p])
        && (p in HeaderPmids(docs) ==> exists k :: IsLastHeader(docs, k, p) && r.value.documents[p] == Raw(TitleOf(docs[k]), BodyOf(docs[k])))
        && AnnotationsOf(r.value.annotations, p) == AnnotationsOf(t.annotations, p) + DocsOwned(docs, p)
        && (p in r.value.annotations <==> p in t.annotations || DocsOwned(docs, p) != [])
  {
    if LoadFile(file.0, file.1, t).Success? {
      ProcessedHeaders(FileDocs(file), PartitionOf(BaseName(file.0)).value, t);
      LoadFilePartitions(file, t, Training);
      LoadFileRecords(file, t, p);
      LoadFileAnnotations(file, t, p);
    }
  }

  /** The first step of a successful run over the files, with the tables
      it leaves for the rest. */
  lemma LoadFilesStep(files: seq<(string, seq<string>)>, t: Tables, p: string, q: Partition) returns (t': Tables)
    requires CvComplete(t) && |files| > 0
    ensures CvComplete(t')
    ensures LoadFilesFrom(files, t).Success? ==>
      && LoadFilesFrom(files, t) == LoadFilesFrom(files[1..], t')
      && PartitionOf(BaseName(files[0].0)).Some? && AllHeadersPresent(FileDocs(files[0]))
      && t'.cv[q] == t.cv[q] + (if PartitionOf(BaseName(files[0].0)) == Some(q) then HeaderPmids(FileDocs(files[0])) else {})
    ensures var docs := FileDocs(files[0]);
      LoadFilesFrom(files, t).Success? ==>
        && t'.documents.Keys == t.documents.Keys + HeaderPmids(docs)
        && (p !in HeaderPmids(docs) && p in t.documents ==> t'.documents[p] == t.documents[p])
        && (p in HeaderPmids(docs) ==> exists k :: IsLastHeader(docs, k, p) && t'.documents[p] == Raw(TitleOf(docs[k]), BodyOf(docs[k])))
    ensures LoadFilesFrom(files, t).Success? ==>
      && AnnotationsOf(t'.annotations, p) == AnnotationsOf(t.annotations, p) + DocsOwned(FileDocs(files[0]), p)
      && (p in t'.annotations <==> p in t.annotations || DocsOwned(FileDocs(files[0]), p) != [])
  {
    var first := LoadFile(files[0].0, files[0].1, t);
    if first.Success? {
      t' := first.value;
      ProcessedHeaders(FileDocs(files[0]), PartitionOf(BaseName(files[0].0)).value, t);
      LoadFilePartitions(files[0], t, q);
      LoadFileRecords(files[0], t, p);
      LoadFileAnnotations(files[0], t, p);
    } else {
      t' := t;
    }
  }

  /** A successful load read every header of every file. */
  lemma {:induction false} LoadedHeaders(files: seq<(string, seq<string>)>, t: Tables)
    requires CvComplete(t)
    ensures LoadFilesFrom(files, t).Success? ==> forall f :: 0 <= f < |files| ==> AllHeadersPresent(FileDocs(files[f]))
    decreases |files|
  {
    if |files| > 0 && LoadFilesFrom(files, t).Success? {
      var t' := LoadFilesStep(files, t, "", Training);
      LoadedHeaders(files[1..], t');
      assert forall f :: 0 < f < |files| ==> files[f] == files[1..][f - 1];
    }
  }

  /** Partition `q` after all the files. */
  lemma {:induction false} LoadedPartitions(files: seq<(string, seq<string>)>, t: Tables, q: Partition)
    requires CvComplete(t)
    ensures var r := LoadFilesFrom(files, t);
      r.Success? ==> q in r.value.cv && r.value.cv[q] == t.cv[q] + FilesPmidsIn(files, q)
    decreases |files|
  {
    if |files| > 0 && LoadFilesFrom(files, t).Success? {
      var t' := LoadFilesStep(files, t, "", q);
      LoadedPartitions(files[1..], t', q);
      var inc := if PartitionOf(BaseName(files[0].0)) == Some(q) then HeaderPmids(FileDocs(files[0])) else {};
      UnionAssoc(t.cv[q], inc, FilesPmidsIn(files[1..], q));
    }
  }

  /** The PMIDs holding records after all the files. */
  lemma {:induction false} LoadedKeys(files: seq<(string, seq<string>)>, t: Tables)
    requires CvComplete(t)
    ensures var r := LoadFilesFrom(files, t);
      r.Success? ==> r.value.documents.Keys == t.documents.Keys + FilesPmids(files)
    decreases |files|
  {
    if |files| > 0 && LoadFilesFrom(files, t).Success? {
      var t' := LoadFilesStep(files, t, "", Training);
      LoadedKeys(files[1..], t');
      UnionAssoc(t.documents.Keys, HeaderPmids(FileDocs(files[0])), FilesPmids(files[1..]));
    }
  }

  /** The record of `p` after all the files. */
  lemma {:induction false} LoadedRecord(files: seq<(string, seq<string>)>, t: Tables, p: string)
    requires CvComplete(t)
    ensures var r := LoadFilesFrom(files, t);
      r.Success? ==>
        && (p !in FilesPmids(files) && p in t.documents ==> p in r.value.documents && r.value.documents[p] == t.documents[p])
        && (p in FilesPmids(files) ==> p in r.value.documents && RecordFromFiles(files, p, r.value.documents[p]))
    decreases |files|
  {
    if |files| > 0 && LoadFilesFrom(files, t).Success? {
      var r := LoadFilesFrom(files, t).value;
      var t' := LoadFilesStep(files, t, p, Training);
      LoadedRecord(files[1..], t', p);
      var docs := FileDocs(files[0]);
      if p in FilesPmids(files[1..]) {
        var f, k :| 0 <= f < |files[1..]| && 0 <= k < |FileDocs(files[1..][f])| && RecordOf(FileDocs(files[1..][f])[k], p, r.documents[p]);
        assert files[1..][f] == files[f + 1];
      } else if p in HeaderPmids(docs) {
        var k :| IsLastHeader(docs, k, p) && t'.documents[p] == Raw(TitleOf(docs[k]), BodyOf(docs[k]));
        assert RecordOf(FileDocs(files[0])[k], p, r.documents[p]);
      }
    }
  }

  /** The records after all the files. */
  lemma LoadedRecords(files: seq<(string, seq<string>)>, t: Tables, p: string)
    requires CvComplete(t)
    ensures var r := LoadFilesFrom(files, t);
      r.Success? ==>
        && r.value.documents.Keys == t.documents.Keys + FilesPmids(files)
        && (p !in FilesPmids(files) && p in t.documents ==> r.value.documents[p] == t.documents[p])
        && (p in FilesPmids(files) ==> RecordFromFiles(files, p, r.value.documents[p]))
  {
    LoadedKeys(files, t);
    LoadedRecord(files, t, p);
  }

  /** The annotation list of `p` after all the files. */
  lemma {:induction false} LoadedAnnotationLists(files: seq<(string, seq<string>)>, t: Tables, p: string)
    requires CvComplete(t)
    ensures var r := LoadFilesFrom(files, t);
      r.Success? ==>
        && AnnotationsOf(r.value.annotations, p) == AnnotationsOf(t.annotations, p) + FilesOwned(files, p)
        && (p in r.value.annotations <==> p in t.annotations || FilesOwned(files, p) != [])
    decreases |files|
  {
    if |files| > 0 && LoadFilesFrom(files, t).Success? {
      var t' := LoadFilesStep(files, t, p, Training);
      var before, own, later := AnnotationsOf(t.annotations, p), DocsOwned(FileDocs(files[0]), p), FilesOwned(files[1..], p);
      LoadedAnnotationLists(files[1..], t', p);
      AppendAssoc(before, own, later);
    }
  }

  /** What all the files store, on success: each partition gains the header
      PMIDs of its files; the records are those of the tables before plus
      a raw record, taken from some document naming the PMID, for every
      header PMID; and every PMID's list gains the files' mentions filed
      under it, in file order. */
  lemma LoadFilesContents(files: seq<(string, seq<string>)>, t: Tables, p: string, q: Partition)
    requires CvComplete(t)
    ensures var r := LoadFilesFrom(files, t);
      r.Success? ==>
        && (forall f :: 0 <= f < |files| ==> AllHeadersPresent(FileDocs(files[f])))
        && q in r.value.cv
        && r.value.cv[q] == t.cv[q] + FilesPmidsIn(files, q)
        && r.value.documents.Keys == t.documents.Keys + FilesPmids(files)
        && (p !in FilesPmids(files) && p in t.documents ==> r.value.documents[p] == t.documents[p])
        && (p in FilesPmids(files) ==> RecordFromFiles(files, p, r.value.documents[p]))
        && AnnotationsOf(r.value.annotations, p) == AnnotationsOf(t.annotations, p) + FilesOwned(files, p)
        && (p in r.value.annotations <==> p in t.annotations || FilesOwned(files, p) != [])
  {
    LoadedHeaders(files, t);
    LoadedPartitions(files, t, q);
    LoadedRecords(files, t, p);
    LoadedAnnotationLists(files, t, p);
  }

  // ---------------------------------------------------------------------
  // What a successful load guarantees

  /** An annotation agrees with its document: its text is the document
      string sliced at its offsets, and it is a title mention exactly when
      it ends inside the title. */
  predicate Faithful(a: Annotation, title: string, docStr: string) {
    && a.text == Slice(docStr, a.start, a.end)
    && (a.textType == Title <==> a.end <= |title|)
  }

  lemma {:induction false} OwnedElement(pairs: seq<(string, Annotation)>, p: string, a: Annotation)
    requires a in Owned(pairs, p)
    ensures exists k :: 0 <= k < |pairs| && pairs[k] == (p, a)
    decreases |pairs|
  {
    var head := if pairs[0].0 == p then [pairs[0].1] else [];
    if a !in head {
      OwnedElement(pairs[1..], p, a);
      var k :| 0 <= k < |pairs[1..]| && pairs[1..][k] == (p, a);
      assert pairs[k + 1] == (p, a);
    }
  }

  /** A processed document adds to every PMID's list only annotations that
      passed the sanity check against that document; every other entry was
      in the list before. */
  lemma DocumentAnnotationsFaithful(doc: Group, part: Partition, t: Tables, p: string)
    requires CvComplete(t)
    ensures var r := ProcessDocument(doc, part, t);
      r.Success? ==> forall a :: a in AnnotationsOf(r.value.annotations, p) ==>
        a in AnnotationsOf(t.annotations, p) || Faithful(a, doc[0][2], DocString(doc[0][2], doc[1][2]))
  {
    var r := ProcessDocument(doc, part, t);
    if r.Success? {
      var title, docStr := doc[0][2], DocString(doc[0][2], doc[1][2]);
      var rows := doc[2..];
      var pairs := ParseMentions(rows, title, docStr).value;
      RegisterAppends(t.annotations, pairs, p);
      forall a | a in AnnotationsOf(r.value.annotations, p)
        ensures a in AnnotationsOf(t.annotations, p) || Faithful(a, title, docStr)
      {
        if a !in AnnotationsOf(t.annotations, p) {
          assert a in Owned(pairs, p);
          OwnedElement(pairs, p, a);
          var k :| 0 <= k < |pairs| && pairs[k] == (p, a);
          ParseMentionSpec(rows[k], title, docStr);
        }
      }
    }
  }

  /** A mention a document contributes agrees with that document. */
  lemma MentionPairsFaithful(doc: Group, p: string, a: Annotation)
    ensures a in Owned(MentionPairs(doc), p) ==> FaithfulTo(a, doc)
  {
    var pairs := MentionPairs(doc);
    if a in Owned(pairs, p) {
      OwnedElement(pairs, p, a);
      var k :| 0 <= k < |pairs| && pairs[k] == (p, a);
      ParseMentionSpec(doc[2..][k], TitleOf(doc), DocString(TitleOf(doc), BodyOf(doc)));
    }
  }

  /** A mention the documents file under `p` comes from one of them. */
  lemma {:induction false} DocsOwnedElement(docs: seq<Group>, p: string, a: Annotation)
    requires a in DocsOwned(docs, p)
    ensures exists k :: 0 <= k < |docs| && a in Owned(MentionPairs(docs[k]), p)
    decreases |docs|
  {
    if a !in Owned(MentionPairs(docs[0]), p) {
      DocsOwnedElement(docs[1..], p, a);
      var k :| 0 <= k < |docs[1..]| && a in Owned(MentionPairs(docs[1..][k]), p);
      assert docs[1..][k] == docs[k + 1];
    }
  }

  /** A mention the files file under `p` comes from a document of one of
      them. */
  lemma {:induction false} FilesOwnedElement(files: seq<(string, seq<string>)>, p: string, a: Annotation)
    requires a in FilesOwned(files, p)
    ensures exists f, k :: 0 <= f < |files| && 0 <= k < |FileDocs(files[f])| && a in Owned(MentionPairs(FileDocs(files[f])[k]), p)
    decreases |files|
  {
    if a in DocsOwned(FileDocs(files[0]), p) {
      DocsOwnedElement(FileDocs(files[0]), p, a);
    } else {
      FilesOwnedElement(files[1..], p, a);
      var f, k :| 0 <= f < |files[1..]| && 0 <= k < |FileDocs(files[1..][f])| && a in Owned(MentionPairs(FileDocs(files[1..][f])[k]), p);
      assert files[1..][f] == files[f + 1];
    }
  }

  /** After a successful load each partition is the header PMIDs of the
      files whose name maps to it. */
  lemma LoadedPartitionTable(files: seq<(string, seq<string>)>)
    ensures var r := LoadFiles(files);
      r.Success? ==> forall q: Partition :: q in r.value.cv && r.value.cv[q] == FilesPmidsIn(files, q)
  {
    forall q: Partition {
      LoadedPartitions(files, EmptyTables(), q);
    }
  }

  /** After a successful load there is a record exactly for every header
      PMID, and it is the raw title and body of a document naming it. */
  lemma LoadedRecordTable(files: seq<(string, seq<string>)>)
    ensures var r := LoadFiles(files);
      r.Success? ==>
        && r.value.documents.Keys == FilesPmids(files)
        && forall p :: p in r.value.documents ==> r.value.documents[p].Raw? && RecordFromFiles(files, p, r.value.documents[p])
  {
    LoadedKeys(files, EmptyTables());
    forall p {
      LoadedRecord(files, EmptyTables(), p);
    }
  }

  /** After a successful load every PMID's annotation list is the files'
      mentions filed under it, in file order, and a PMID has a list
      exactly when some mention is filed under it. */
  lemma LoadedAnnotationTable(files: seq<(string, seq<string>)>)
    ensures var r := LoadFiles(files);
      r.Success? ==> forall p ::
        && AnnotationsOf(r.value.annotations, p) == FilesOwned(files, p)
        && (p in r.value.annotations <==> FilesOwned(files, p) != [])
  {
    forall p {
      LoadedAnnotationLists(files, EmptyTables(), p);
    }
  }

  /** Every annotation of a freshly loaded corpus passed the sanity check
      against the document it was read with. */
  lemma LoadedAnnotationsFaithful(files: seq<(string, seq<string>)>, p: string, a: Annotation)
    ensures var r := LoadFiles(files);
      r.Success? && a in AnnotationsOf(r.value.annotations, p) ==>
        exists f, k :: 0 <= f < |files| && 0 <= k < |FileDocs(files[f])| && FaithfulTo(a, FileDocs(files[f])[k])
  {
    var r := LoadFiles(files);
    if r.Success? && a in AnnotationsOf(r.value.annotations, p) {
      LoadedAnnotationLists(files, EmptyTables(), p);
      FilesOwnedElement(files, p, a);
      var f, k :| 0 <= f < |files| && 0 <= k < |FileDocs(files[f])| && a in Owned(MentionPairs(FileDocs(files[f])[k]), p);
      MentionPairsFaithful(FileDocs(files[f])[k], p, a);
    }
  }

  /** `a` agrees with the document `doc`. */
  predicate FaithfulTo(a: Annotation, doc: Group) {
    HeaderPresent(doc) && Faithful(a, TitleOf(doc), DocString(TitleOf(doc), BodyOf(doc)))
  }

  /** The last group of a file whose last line is blank is empty. */
  lemma {:induction false} BlankLastLine(items: seq<Option<Row>>, doc: Group)
    requires |items| > 0 && items[|items| - 1].None?
    ensures var groups := GroupFrom(items, doc); groups[|groups| - 1] == []
    decreases |items|
  {
    if |items| > 1 {
      var rest := items[1..];
      assert rest[|rest| - 1] == items[|items| - 1];
      if items[0].None? && doc != [] {
        BlankLastLine(rest, []);
      } else if items[0].Some? {
        BlankLastLine(rest, doc + [items[0].value]);
      } else {
        BlankLastLine(rest, doc);
      }
    }
  }

  /** A file that ends with a blank line ends with an empty document. */
  lemma TrailingBlankLineEmptyGroup(lines: seq<string>)
    requires |lines| > 0 && IsBlank(lines[|lines| - 1])
    ensures var groups := Groups(lines); groups[|groups| - 1] == []
  {
    var items := LineRows(lines);
    assert items[|items| - 1] == LineRow(lines[|lines| - 1]);
    BlankLastLine(items, []);
  }

  /** A file that ends with a blank line ends with an empty document,
      which has no header: the load fails. */
  lemma TrailingBlankLineRejected(path: string, lines: seq<string>)
    requires |lines| > 0 && IsBlank(lines[|lines| - 1])
    ensures !FileAccepted(path, lines)
  {
    TrailingBlankLineEmptyGroup(lines);
    var groups := Groups(lines);
    assert !DocumentAccepted(groups[|groups| - 1]);
  }
}

=== FILE: loader_scenarios.dfy ===
/**
 Worked examples of the loader on a one-mention document whose title is
 "Tumor" and whose abstract is "Big": the mention row with offsets 0 and 5
 is accepted, the same row with end offset 4 stops the load.
 */
module LoaderScenarios {
  import opened NcbiTypes
  import opened PyText
  import opened Loader

  /** The title line `1|t|Tumor` splits on `|` into its three fields. */
  lemma TitleLineFields()
    ensures SplitRow("1|t|Tumor") == ["1", "t", "Tumor"]
  {
    var parts := ["1", "t", "Tumor"];
    assert Join(parts, '|') == "1|t|Tumor";
    SplitJoin(parts, '|');
  }

  /** An offset field written with a space after its sign is read as a
      negative number, as Python 2's `int()` reads it. */
  lemma SpacedSign()
    ensures ParseInt("- 5") == Some(-5)
  {
    SpaceAfterSign(" ", 5);
    assert ShowNat(5) == "5";
    assert "-" + " " + ShowNat(5) == "- 5";
  }

  lemma SmallNumbers()
    ensures ParseInt("0") == Some(0) && ParseInt("4") == Some(4) && ParseInt("5") == Some(5)
  {
    ParseShowInt(0);
    ParseShowInt(4);
    ParseShowInt(5);
    assert ShowInt(0) == "0" && ShowInt(4) == "4" && ShowInt(5) == "5";
  }

  /** The document's rows after splitting, with the mention's end offset
      given by `end`. */
  function TumorDocument(end: string): Group {
    [["1", "t", "Tumor"], ["1", "a", "Big"], ["1", "0", end, "Tumor", "Disease", "D001"]]
  }

  lemma TumorRows()
    ensures ParseMention(TumorDocument("5")[2], "Tumor", DocString("Tumor", "Big"))
      == Success(("1", Annotation(Title, 0, 5, "Tumor", "Disease")))
    ensures ParseMention(TumorDocument("4")[2], "Tumor", DocString("Tumor", "Big"))
      == Failure(IntegrityViolation("1", "Tumor", "Tumo"))
  {
    var docStr := DocString("Tumor", "Big");
    SmallNumbers();
    assert Slice(docStr, 0, 5) == "Tumor";
    assert Slice(docStr, 0, 4) == "Tumo";
    ParseMentionSpec(TumorDocument("5")[2], "Tumor", docStr);
    ParseMentionSpec(TumorDocument("4")[2], "Tumor", docStr);
  }

  /** "Tumor" at offsets 0-5 is the title: the mention is stored under its
      PMID as a title mention. */
  lemma TumorAccepted(t: Tables)
    requires CvComplete(t) && t.annotations == map[]
    ensures ProcessDocument(TumorDocument("5"), Training, t).Success?
    ensures AnnotationsOf(ProcessDocument(TumorDocument("5"), Training, t).value.annotations, "1")
      == [Annotation(Title, 0, 5, "Tumor", "Disease")]
  {
    var doc := TumorDocument("5");
    var docStr := DocString("Tumor", "Big");
    TumorRows();
    assert doc[2..] == [doc[2]];
    var pairs := ParseMentions(doc[2..], "Tumor", docStr).value;
    assert pairs == [("1", Annotation(Title, 0, 5, "Tumor", "Disease"))];
    RegisterAppends(t.annotations, pairs, "1");
  }

  /** End offset 4 slices "Tumo" out of "Tumor Big": the sanity check fails
      and the load stops, naming the PMID, the text and the slice. */
  lemma TumorCorrupted(t: Tables)
    requires CvComplete(t)
    ensures ProcessDocument(TumorDocument("4"), Training, t) == Failure(IntegrityViolation("1", "Tumor", "Tumo"))
  {
    var doc := TumorDocument("4");
    TumorRows();
    assert doc[2..] == [doc[2]];
  }
}

=== FILE: lookup.dfy ===
/**
 Document lookup (`__getitem__`) as a state machine over the loaded tables
 and the parse cache. The cache directory of pickled documents is a map
 from PMID to document; the tokenizer is a parameter, any function from
 the document string to sentences.
 */
module Lookup {
  import opened NcbiTypes
  import opened Alignment
  import opened Loader
  import AlignmentFacts

  /** The reader's state: the loaded tables and the cache's contents. */
  datatype Corpus = Corpus(tables: Tables, cache: map<string, Document>)

  /** The tokenizer: the document string to its sentences. */
  type Parser = string -> seq<Sentence>

  /** The tags of a freshly parsed document: aligned when the PMID has
      annotations, one empty list per sentence when it has none. */
  function TagsFor(anns: map<string, seq<Annotation>>, pmid: string, sentences: seq<Sentence>): (r: Result<seq<seq<Tag>>>)
    ensures r.Failure? <==> pmid in anns && !AllWellFormed(sentences)
    ensures r.Failure? ==> r.error == MalformedSentence
    ensures r.Success? ==> |r.value| == |sentences|
    ensures r.Success? && pmid !in anns ==> forall i :: 0 <= i < |r.value| ==> r.value[i] == []
    ensures r.Success? && pmid in anns ==> AllWellFormed(sentences) && r.value == Label(anns[pmid], sentences)
  {
    if pmid in anns then
      if AllWellFormed(sentences) then Success(Label(anns[pmid], sentences)) else Failure(MalformedSentence)
    else
      Success(seq(|sentences|, _ => []))
  }

  /** `corpus[pmid]`: the cached parse if there is one, which also replaces
      the loaded record; otherwise tokenize `title + " " + body`, align the
      PMID's annotations, and store the result in the record and the
      cache. A PMID that is neither cached nor loaded is not found. */
  function GetItem(c: Corpus, pmid: string, parse: Parser): (r: (Result<Document>, Corpus))
    ensures pmid in c.cache ==>
      r == (Success(c.cache[pmid]), c.(tables := c.tables.(documents := c.tables.documents[pmid := c.cache[pmid]])))
    ensures pmid !in c.cache && pmid !in c.tables.documents ==> r == (Failure(NotFound(pmid)), c)
    ensures r.0.Failure? ==> r.1 == c
    ensures pmid !in c.cache && r.0.Success? ==>
      var d := c.tables.documents[pmid];
      var doc := r.0.value;
      && doc.Parsed? && doc.title == d.title && doc.body == d.body
      && doc.sentences == parse(DocString(d.title, d.body))
      && TagsFor(c.tables.annotations, pmid, doc.sentences) == Success(doc.tags)
      && r.1 == Corpus(c.tables.(documents := c.tables.documents[pmid := doc]), c.cache[pmid := doc])
  {
    if pmid in c.cache then
      var doc := c.cache[pmid];
      (Success(doc), c.(tables := c.tables.(documents := c.tables.documents[pmid := doc])))
    else if pmid !in c.tables.documents then
      (Failure(NotFound(pmid)), c)
    else
      var d := c.tables.documents[pmid];
      var sentences := parse(DocString(d.title, d.body));
      match TagsFor(c.tables.annotations, pmid, sentences)
      case Failure(e) => (Failure(e), c)
      case Success(tags) =>
        var doc := Parsed(d.title, d.body, sentences, tags);
        (Success(doc), Corpus(c.tables.(documents := c.tables.documents[pmid := doc]), c.cache[pmid := doc]))
  }

  /** After a successful lookup the record and the cache both hold the
      document that was returned. */
  lemma LookupStores(c: Corpus, pmid: string, parse: Parser)
    requires GetItem(c, pmid, parse).0.Success?
    ensures var (r, c') := GetItem(c, pmid, parse);
      && pmid in c'.tables.documents && c'.tables.documents[pmid] == r.value
      && pmid in c'.cache && c'.cache[pmid] == r.value
  {
  }

  /** Looking a PMID up twice is looking it up once: the second lookup is a
      cache hit that returns the same document and leaves the state as the
      first left it, whatever tokenizer it is given. */
  lemma LookupIdempotent(c: Corpus, pmid: string, parse: Parser, parse': Parser)
    requires GetItem(c, pmid, parse).0.Success?
    ensures var (r, c') := GetItem(c, pmid, parse); GetItem(c', pmid, parse') == (r, c')
  {
    var (r, c') := GetItem(c, pmid, parse);
    LookupStores(c, pmid, parse);
    var docs := c'.tables.documents;
    assert docs[pmid := c'.cache[pmid]] == docs;
  }

  /** A cache hit never runs the tokenizer. */
  lemma HitIgnoresParser(c: Corpus, pmid: string, parse: Parser, parse': Parser)
    requires pmid in c.cache
    ensures GetItem(c, pmid, parse) == GetItem(c, pmid, parse')
  {
  }

  /** A lookup touches only its own PMID's record and cache entry, and never
      the partitions or the annotations. */
  lemma LookupFrame(c: Corpus, pmid: string, parse: Parser, q: string)
    requires q != pmid
    ensures var c' := GetItem(c, pmid, parse).1;
      && c'.tables.cv == c.tables.cv
      && c'.tables.annotations == c.tables.annotations
      && (q in c'.tables.documents <==> q in c.tables.documents)
      && (q in c.tables.documents ==> c'.tables.documents[q] == c.tables.documents[q])
      && (q in c'.cache <==> q in c.cache)
      && (q in c.cache ==> c'.cache[q] == c.cache[q])
  {
  }

  /** A document record whose tags line up with its sentences. */
  predicate Aligned(d: Document) {
    d.Parsed? ==> |d.tags| == |d.sentences|
  }

  /** Every record and every cached document is aligned. */
  predicate CorpusAligned(c: Corpus) {
    && (forall p :: p in c.tables.documents ==> Aligned(c.tables.documents[p]))
    && (forall p :: p in c.cache ==> Aligned(c.cache[p]))
  }

  /** A corpus just read from the files, with an aligned cache, is
      aligned: the load stores only raw records. */
  lemma LoadedCorpusAligned(files: seq<(string, seq<string>)>, cache: map<string, Document>)
    requires forall p :: p in cache ==> Aligned(cache[p])
    ensures LoadFiles(files).Success? ==> CorpusAligned(Corpus(LoadFiles(files).value, cache))
  {
    if LoadFiles(files).Success? {
      LoadedRecordTable(files);
    }
  }

  /** Lookups keep every record and cached document aligned, and what they
      return is aligned: one tag list per sentence. */
  lemma LookupKeepsAligned(c: Corpus, pmid: string, parse: Parser)
    requires CorpusAligned(c)
    ensures CorpusAligned(GetItem(c, pmid, parse).1)
    ensures GetItem(c, pmid, parse).0.Success? ==> Aligned(GetItem(c, pmid, parse).0.value)
  {
    var (r, c') := GetItem(c, pmid, parse);
    if r.Success? {
      LookupStores(c, pmid, parse);
      assert Aligned(r.value);
      forall p | p in c'.tables.documents
        ensures Aligned(c'.tables.documents[p])
      {
        if p != pmid {
          LookupFrame(c, pmid, parse, p);
        }
      }
      forall p | p in c'.cache
        ensures Aligned(c'.cache[p])
      {
        if p != pmid {
          LookupFrame(c, pmid, parse, p);
        }
      }
    }
  }

  /** A loaded PMID with nothing cached is found; it fails only when it has
      annotations and the tokenizer's sentences cannot be aligned. */
  lemma LookupOfLoaded(c: Corpus, pmid: string, parse: Parser)
    requires pmid !in c.cache && pmid in c.tables.documents
    ensures var d := c.tables.documents[pmid];
      (GetItem(c, pmid, parse).0.Success? <==>
        pmid !in c.tables.annotations || AllWellFormed(parse(DocString(d.title, d.body))))
  {
  }

  /** When the tokenizer returns the sentences in document order, tag list
      `i` of a fresh parse holds the PMID's mentions that sentence `i`
      covers, in annotation order. */
  lemma LookupTagsInDocumentOrder(c: Corpus, pmid: string, parse: Parser, i: nat)
    requires pmid !in c.cache && pmid in c.tables.documents && pmid in c.tables.annotations
    requires var d := c.tables.documents[pmid]; var ss := parse(DocString(d.title, d.body));
      AllWellFormed(ss) && StrictlyIncreasing(AlignmentFacts.FirstOffsetSeq(ss)) && i < |ss|
    ensures var d := c.tables.documents[pmid]; var ss := parse(DocString(d.title, d.body));
      var r := GetItem(c, pmid, parse).0;
      r.Success? && r.value.Parsed? && r.value.tags[i] == Matching(c.tables.annotations[pmid], ss[i])
  {
    var d := c.tables.documents[pmid];
    var ss := parse(DocString(d.title, d.body));
    AlignmentFacts.LabelInDocumentOrder(c.tables.annotations[pmid], ss, i);
  }
}

=== FILE: ncbi_types.dfy ===
/**
 The records of the NCBI disease corpus reader: gold mention annotations,
 tokenized sentences, aligned tags and document records, plus the failure
 type that stands in for the exceptions and the `sys.exit` of the reader.
 */
module NcbiTypes {

  /** Where a mention lies: in the title ("T") or in the abstract ("A"). */
  datatype TextType = Title | Abstract

  /** One gold mention, with character offsets into `title + " " + body`. */
  datatype Annotation = Annotation(
    textType: TextType,
    start: int,
    end: int,
    text: string,
    mentionType: string)

  /** A sentence as the tokenizer returns it: each token and the character
      offset at which it starts in the document string. */
  datatype Sentence = Sentence(words: seq<string>, tokenIdxs: seq<int>)

  /** The alignment of one annotation inside one sentence: its text and the
      half-open token span `[sStart, sEnd)`. */
  datatype Tag = Tag(text: string, sStart: int, sEnd: int)

  /** A document record: as loaded (title and body only), or after the
      tokenize-and-align step has filled in its sentences and tags. */
  datatype Document =
    | Raw(title: string, body: string)
    | Parsed(title: string, body: string, sentences: seq<Sentence>, tags: seq<seq<Tag>>)

  /** The three cross-validation partitions of the corpus. */
  datatype Partition = Training | Development | Testing

  /** The ways the reader stops. */
  datatype Error =
    | UnknownFile(name: string)                           // no partition for this file name
    | MalformedDocument                                   // a header field is missing
    | MalformedMentionRow(row: seq<string>)               // a mention row without exactly six fields
    | BadOffset(field: string)                            // an offset field that is not an integer
    | IntegrityViolation(pmid: string, text: string, found: string)  // the fatal sanity check
    | NotFound(pmid: string)                              // lookup of a PMID that was never loaded
    | MalformedSentence                                   // tokenizer output the aligner cannot index

  /** Success or failure; usable with `:-`. */
  datatype Result<+T> = Success(value: T) | Failure(error: Error) {

    predicate IsFailure() {
      Failure?
    }

    function PropagateFailure<U>(): Result<U>
      requires Failure?
    {
      Failure(error)
    }

    function Extract(): T
      requires Success?
    {
      value
    }
  }

  /** The values of a sequence of results, or the first failure in it. */
  function Collect<T>(rs: seq<Result<T>>): (r: Result<seq<T>>)
    ensures r.Success? <==> forall k :: 0 <= k < |rs| ==> rs[k].Success?
    ensures r.Success? ==> |r.value| == |rs| && forall k :: 0 <= k < |rs| ==> rs[k] == Success(r.value[k])
    ensures r.Failure? ==> exists k ::
      && 0 <= k < |rs| && rs[k] == Failure(r.error)
      && forall j :: 0 <= j < k ==> rs[j].Success?
  {
    if |rs| == 0 then Success([])
    else
      var rest := Collect(rs[1..]);
      assert forall k :: 1 <= k < |rs| ==> rs[k] == rs[1..][k - 1];
      match rs[0]
      case Failure(e) => Failure(e)
      case Success(first) =>
        if rest.Failure? then
          var k :| 0 <= k < |rs[1..]| && rs[1..][k] == Failure(rest.error) && forall j :: 0 <= j < k ==> rs[1..][j].Success?;
          assert rs[k + 1] == Failure(rest.error);
          Failure(rest.error)
        else Success([first] + rest.value)
  }

  /** The document string the annotations' offsets refer to. */
  function DocString(title: string, body: string): string {
    title + " " + body
  }
}

=== FILE: py_text.dfy ===
/**
 The Python 2 string operations the corpus reader relies on, with their
 Python meaning written out: `strip()`, `split(sep)` with a one-character
 separator, slicing with clamped and negative indices, and `int()` on a
 decimal string.
 */
module PyText {

  /** The characters `unicode.isspace` accepts in Python 2.7 (Unicode 5.2),
      which `strip()` removes. */
  predicate IsSpace(c: char) {
    || c == ' '
    || ('\t' <= c <= '\r')
    || ('\U{1c}' <= c <= '\U{1f}')
    || c == '\U{85}' || c == '\U{a0}' || c == '\U{1680}' || c == '\U{180e}'
    || ('\U{2000}' <= c <= '\U{200a}')
    || c == '\U{2028}' || c == '\U{2029}' || c == '\U{202f}'
    || c == '\U{205f}' || c == '\U{3000}'
  }

  /** `s.lstrip()`: drop the leading whitespace. */
  function TrimLeft(s: string): (r: string)
    ensures |r| <= |s|
  {
    if |s| > 0 && IsSpace(s[0]) then TrimLeft(s[1..]) else s
  }

  /** What `lstrip()` keeps is a suffix that does not start with whitespace,
      and what it drops is whitespace. */
  lemma {:induction false} TrimLeftSpec(s: string)
    ensures TrimLeft(s) == s[|s| - |TrimLeft(s)|..]
    ensures forall k :: 0 <= k < |s| - |TrimLeft(s)| ==> IsSpace(s[k])
    ensures TrimLeft(s) == [] || !IsSpace(TrimLeft(s)[0])
  {
    if |s| > 0 && IsSpace(s[0]) {
      TrimLeftSpec(s[1..]);
      assert forall k :: 1 <= k < |s| ==> s[k] == s[1..][k - 1];
    }
  }

  /** `s.rstrip()`: drop the trailing whitespace. */
  function TrimRight(s: string): (r: string)
    ensures |r| <= |s|
  {
    if |s| > 0 && IsSpace(s[|s| - 1]) then TrimRight(s[..|s| - 1]) else s
  }

  /** What `rstrip()` keeps is a prefix that does not end with whitespace,
      and what it drops is whitespace. */
  lemma {:induction false} TrimRightSpec(s: string)
    ensures TrimRight(s) == s[..|TrimRight(s)|]
    ensures forall k :: |TrimRight(s)| <= k < |s| ==> IsSpace(s[k])
    ensures TrimRight(s) == [] || !IsSpace(TrimRight(s)[|TrimRight(s)| - 1])
  {
    if |s| > 0 && IsSpace(s[|s| - 1]) {
      TrimRightSpec(s[..|s| - 1]);
    }
  }

  /** `s.strip()`: both ends trimmed. */
  function Strip(s: string): (r: string)
    ensures |r| <= |s|
  {
    TrimRight(TrimLeft(s))
  }

  /** `strip()` keeps the slice `s[i..j]` between the leading and the
      trailing whitespace; that slice is empty or has non-blank ends. */
  lemma StripSpec(s: string)
    ensures exists i, j ::
      && 0 <= i <= j <= |s| && Strip(s) == s[i..j]
      && (forall k :: 0 <= k < i ==> IsSpace(s[k]))
      && (forall k :: j <= k < |s| ==> IsSpace(s[k]))
    ensures Strip(s) == [] || (!IsSpace(Strip(s)[0]) && !IsSpace(Strip(s)[|Strip(s)| - 1]))
  {
    var l := TrimLeft(s);
    TrimLeftSpec(s);
    TrimRightSpec(l);
    var i := |s| - |l|;
    var j := i + |Strip(s)|;
    assert Strip(s) == s[i..j];
    assert forall k :: j <= k < |s| ==> s[k] == l[k - i];
    if Strip(s) != [] {
      assert Strip(s)[0] == l[0];
    }
  }

  /** Nothing but whitespace. */
  predicate IsBlank(s: string) {
    forall k :: 0 <= k < |s| ==> IsSpace(s[k])
  }

  /** A line strips to nothing exactly when it is all whitespace. */
  lemma StripBlank(s: string)
    ensures Strip(s) == [] <==> IsBlank(s)
  {
    var l := TrimLeft(s);
    TrimLeftSpec(s);
    TrimRightSpec(l);
    assert forall k :: 0 <= k < |l| ==> l[k] == s[k + |s| - |l|];
  }

  /** Stripping twice is stripping once. */
  lemma StripIdempotent(s: string)
    ensures Strip(Strip(s)) == Strip(s)
  {
    var t := Strip(s);
    StripSpec(s);
    if t != [] {
      assert TrimLeft(t) == t;
      assert TrimRight(t) == t;
    }
  }

  /** The pieces of `parts` glued back together with `sep` between them. */
  function Join(parts: seq<string>, sep: char): string
    requires |parts| >= 1
  {
    if |parts| == 1 then parts[0] else parts[0] + [sep] + Join(parts[1..], sep)
  }

  /** `s.split(sep)`: the maximal separator-free pieces between the
      occurrences of `sep`; always at least one piece, possibly empty ones. */
  function Split(s: string, sep: char): (parts: seq<string>)
    ensures |parts| >= 1
    ensures forall k :: 0 <= k < |parts| ==> sep !in parts[k]
    ensures Join(parts, sep) == s
  {
    if |s| == 0 then
      [""]
    else
      var rest := Split(s[1..], sep);
      if s[0] == sep then
        assert Join([""] + rest, sep) == [sep] + Join(rest, sep) by {
          assert ([""] + rest)[1..] == rest;
        }
        [""] + rest
      else
        var parts := [[s[0]] + rest[0]] + rest[1..];
        assert Join(parts, sep) == s by {
          if |rest| > 1 {
            assert parts[1..] == rest[1..];
          }
        }
        parts
  }

  /** The last piece of a join comes after the last separator. */
  lemma {:induction false} JoinLast(parts: seq<string>, sep: char)
    requires |parts| > 1
    ensures Join(parts, sep) == Join(parts[..|parts| - 1], sep) + [sep] + parts[|parts| - 1]
    decreases |parts|
  {
    if |parts| > 2 {
      JoinLast(parts[1..], sep);
      assert parts[1..][..|parts| - 2] == parts[..|parts| - 1][1..];
    }
  }

  /** Splitting undoes joining, whenever no piece holds the separator. */
  lemma {:induction false} SplitJoin(parts: seq<string>, sep: char)
    requires |parts| >= 1
    requires forall k :: 0 <= k < |parts| ==> sep !in parts[k]
    ensures Split(Join(parts, sep), sep) == parts
    decreases |Join(parts, sep)|, |parts[0]|
  {
    var s := Join(parts, sep);
    if |parts[0]| == 0 {
      if |parts| == 1 {
        assert s == "";
      } else {
        assert s == [sep] + Join(parts[1..], sep);
        assert s[1..] == Join(parts[1..], sep);
        SplitJoin(parts[1..], sep);
        assert [""] + parts[1..] == parts;
      }
    } else {
      var c := parts[0][0];
      var shorter := [parts[0][1..]] + parts[1..];
      assert shorter[1..] == parts[1..];
      assert Join(shorter, sep) == s[1..] by {
        if |parts| == 1 {
        } else {
          assert s == parts[0] + [sep] + Join(parts[1..], sep);
          assert s[1..] == parts[0][1..] + [sep] + Join(parts[1..], sep);
        }
      }
      assert sep !in shorter[0] by {
        assert forall x :: x in parts[0][1..] ==> x in parts[0];
      }
      SplitJoin(shorter, sep);
      assert s[0] == c && c != sep;
      assert parts[0] == [c] + shorter[0];
      assert [[c] + shorter[0]] + shorter[1..] == parts;
    }
  }

  /** A slice bound as Python resolves it: a negative index counts from
      the end, and the result is clamped to `[0, n]`. */
  function ClampIndex(i: int, n: nat): (r: nat)
    ensures r <= n
    ensures 0 <= i <= n ==> r == i
    ensures i + n < 0 ==> r == 0
    ensures 0 <= i + n && i < 0 ==> r == n + i
    ensures n < i ==> r == n
  {
    if i < 0 then (if i + n < 0 then 0 else i + n)
    else if i > n then n
    else i
  }

  /** `s[start:end]` with Python's slice semantics; never fails. */
  function Slice(s: string, start: int, end: int): (r: string)
    ensures |r| <= |s|
    ensures 0 <= start <= end <= |s| ==> r == s[start..end]
    ensures 0 <= start <= |s| <= end ==> r == s[start..]
    ensures 0 <= end <= start ==> r == []
    ensures |s| <= start ==> r == []
  {
    var i := ClampIndex(start, |s|);
    var j := ClampIndex(end, |s|);
    if i < j then s[i..j] else []
  }

  /** A negative slice bound counts from the end of the string, and one
      beyond the start of the string acts as 0. */
  lemma SliceNegativeBounds(s: string, start: int, end: int)
    ensures -|s| <= end < 0 ==> Slice(s, start, end) == Slice(s, start, |s| + end)
    ensures end < -|s| ==> Slice(s, start, end) == []
    ensures -|s| <= start < 0 ==> Slice(s, start, end) == Slice(s, |s| + start, end)
    ensures start < -|s| ==> Slice(s, start, end) == Slice(s, 0, end)
  {
  }

  predicate IsDigit(c: char) {
    '0' <= c <= '9'
  }

  predicate AllDigits(s: string) {
    forall k :: 0 <= k < |s| ==> IsDigit(s[k])
  }

  /** The decimal value of a digit string, most significant digit first. */
  function DigitsValue(ds: string): nat
    requires AllDigits(ds)
  {
    if |ds| == 0 then 0
    else DigitsValue(ds[..|ds| - 1]) * 10 + (ds[|ds| - 1] as int - '0' as int)
  }

  /** `int(s)` in base 10: optional surrounding whitespace, an optional
      sign that may itself be followed by whitespace, then one or more
      decimal digits; `None` where Python raises. */
  function ParseInt(s: string): (r: Option<int>)
    ensures r.Some? <==> IsIntLiteral(Strip(s))
  {
    var t := Strip(s);
    if |t| > 0 && (t[0] == '-' || t[0] == '+') then
      var ds := TrimLeft(t[1..]);
      if |ds| > 0 && AllDigits(ds) then
        Some(if t[0] == '-' then -(DigitsValue(ds) as int) else DigitsValue(ds))
      else None
    else if |t| > 0 && AllDigits(t) then Some(DigitsValue(t))
    else None
  }

  /** What `int()` accepts once the whitespace is stripped: the digits, or
      a sign, whitespace and the digits. */
  predicate IsIntLiteral(t: string) {
    var ds := if |t| > 0 && (t[0] == '-' || t[0] == '+') then TrimLeft(t[1..]) else t;
    |ds| > 0 && AllDigits(ds)
  }

  datatype Option<+T> = None | Some(value: T)

  /** The decimal digits of `n`, no leading zero. */
  function ShowNat(n: nat): (s: string)
    ensures |s| > 0 && AllDigits(s)
  {
    var d := [(('0' as int) + n % 10) as char];
    if n < 10 then d else ShowNat(n / 10) + d
  }

  /** `str(n)` for an integer. */
  function ShowInt(n: int): string {
    if n < 0 then "-" + ShowNat(-n) else ShowNat(n)
  }

  lemma {:induction false} DigitsValueShowNat(n: nat)
    ensures DigitsValue(ShowNat(n)) == n
    decreases n
  {
    var s := ShowNat(n);
    if n >= 10 {
      DigitsValueShowNat(n / 10);
      assert s[..|s| - 1] == ShowNat(n / 10);
    }
  }

  /** A string with non-blank first and last characters is its own strip. */
  lemma StripNoEdgeSpace(s: string)
    requires |s| > 0 && !IsSpace(s[0]) && !IsSpace(s[|s| - 1])
    ensures Strip(s) == s
  {
  }

  /** `int(str(n)) == n`: parsing undoes printing. */
  lemma ParseShowInt(n: int)
    ensures ParseInt(ShowInt(n)) == Some(n)
  {
    if n < 0 {
      var d := ShowNat(-n);
      DigitsValueShowNat(-n);
      SignedPieces("", d);
      assert "-" + "" + d == ShowInt(n);
      NegativeLiteral(ShowInt(n), d);
    } else {
      var d := ShowNat(n);
      DigitsValueShowNat(n);
      DigitNotSpace(d[0]);
      DigitNotSpace(d[|d| - 1]);
      StripNoEdgeSpace(d);
      UnsignedLiteral(d);
    }
  }

  /** A stripped run of digits parses to its value. */
  lemma UnsignedLiteral(t: string)
    requires Strip(t) == t && |t| > 0 && AllDigits(t)
    ensures ParseInt(t) == Some(DigitsValue(t) as int)
  {
    assert IsDigit(t[0]);
  }

  /** `lstrip()` removes a whitespace prefix and stops at the first
      non-whitespace character. */
  lemma {:induction false} TrimLeftBlankPrefix(w: string, d: string)
    requires IsBlank(w)
    requires d == [] || !IsSpace(d[0])
    ensures TrimLeft(w + d) == d
    decreases |w|
  {
    if |w| > 0 {
      assert (w + d)[1..] == w[1..] + d;
      TrimLeftBlankPrefix(w[1..], d);
    } else {
      assert w + d == d;
    }
  }

  lemma DigitNotSpace(c: char)
    requires IsDigit(c)
    ensures !IsSpace(c)
  {
  }

  /** A stripped string made of a minus sign, whitespace and digits parses
      to the negated value of the digits. */
  lemma NegativeLiteral(t: string, d: string)
    requires Strip(t) == t && |t| > 0 && t[0] == '-'
    requires TrimLeft(t[1..]) == d && |d| > 0 && AllDigits(d)
    ensures ParseInt(t) == Some(-(DigitsValue(d) as int))
  {
  }

  /** The pieces of `"-" + w + d`, for whitespace `w` and digits `d`, as
      `int()` sees them. */
  lemma SignedPieces(w: string, d: string)
    requires IsBlank(w) && |d| > 0 && AllDigits(d)
    ensures var s := "-" + w + d; Strip(s) == s && |s| > 0 && s[0] == '-' && TrimLeft(s[1..]) == d
  {
    var s := "-" + w + d;
    DigitNotSpace(d[0]);
    DigitNotSpace(d[|d| - 1]);
    assert s[|s| - 1] == d[|d| - 1];
    StripNoEdgeSpace(s);
    assert s[1..] == w + d;
    TrimLeftBlankPrefix(w, d);
  }

  /** `int()` lets whitespace stand between the sign and the digits:
      `int("-" + w + str(n)) == -n` for any run `w` of whitespace. */
  lemma SpaceAfterSign(w: string, n: nat)
    requires IsBlank(w)
    ensures ParseInt("-" + w + ShowNat(n)) == Some(-(n as int))
  {
    var d := ShowNat(n);
    DigitsValueShowNat(n);
    SignedPieces(w, d);
    NegativeLiteral("-" + w + d, d);
  }
}
